=== FILE: README.md ===
# Text-to-speech backend: authentication, accounts, models and history

This project is a Dafny model of the core of a Go HTTP backend for a text-to-speech service.
The model covers these parts:

- **Authentication orchestrator** (`AuthService`). It handles sign-up with e-mail verification, password sign-in, GitHub single sign-on, e-mail verification, password reset, and the mailing of reset links.
- **Account directories.** There are two of them:
  - `Users`, the current `users` package;
  - `LegacyUser`, the older `user` package that the middleware uses.

  Both run over one users table, `UserStore`.
- **Verification tokens** (`Tokens`). A token has a single purpose and a limited lifetime.
- **Request validation** (`Validation`). This includes the password-strength rule.
- **JWT service** (`Jwt`). It issues and validates bearer tokens.
- **Request gates.** The bearer-header handling is in `Bearer`. The account-aware gates are in `AuthMiddleware`. The token-only gates of the router are in `RouterMiddleware`.
- **GitHub SSO provider** (`Sso`).
- **Error handler** (`ServiceErrors`). It maps the service's typed errors to HTTP responses.
- **Model catalogue** (`Models`). It lists the synthesis models.
- **Per-user synthesis history** (`History`). It includes the paging arithmetic.

Every operation is a pure function over immutable tables. Some examples:

- the users table is a map from id to row;
- the tokens table is a map from token string to row;
- the models table is a sequence in storage order;
- the history table is a sequence in listing order, newest first.

Each table's invariant is the schema's keys. Examples are the unique email, the unique token, and the unique (name, language) pair. A write that would break a key is refused, as the database refuses it.

Each table also carries a set of `faults`. These are the queries that fail with an error other than "record not found". This is how database outages appear in the contracts.

Fresh uuids, the clock, bcrypt, the JWT library, the OAuth2 client, the HTTP GETs and the mailer are parameters.

The model keeps the code's behaviour where that differs from the intended design:

- sign-in answers an unknown address with the lookup's own NotFound;
- sign-up reports any failed lookup as "email taken";
- e-mail verification ignores the result of its account update;
- password reset succeeds without changes when the token's owner cannot be loaded;
- the gates look for `"Bearer "` anywhere in the header but cut the token at offset 7;
- a bearer token without exactly three dot-separated segments makes JWT validation panic, and nothing recovers, so the request crashes instead of being answered;
- a model update checks the request's (name, language) pair rather than the merged one.

## Model

| member | source | states |
|---|---|---|
| ServiceErrors.HandleError | internal/error/error_handler.go:5-30 | each of the five typed errors gets its own status (404, 400, 401, 500, 502) with its message as the body; any other error is a bare 500 without a body; a body is present exactly for typed errors |
| ServiceErrors.HandleErrorInvertible | internal/error/error_handler.go:5-30 | the kind and the message of a typed error can be read back from the response; an untyped error leaves nothing to read back |
| ServiceErrors.HandleErrorInjective | internal/error/error_handler.go:5-30 | two typed errors that the handler answers identically are the same error |
| UserTypes.UserDtoRoundTrip | internal/users/user_dto.go:20-48 | converting a user transfer object to a row and back gives the same object |
| UserTypes.UserModelRoundTrip | internal/users/user_dto.go:20-48 | converting a user row to a transfer object and back gives the same row |
| UserTypes.JsonViewHidesSecrets | internal/users/user_dto.go:7-18 | the JSON form of an account never carries the password hash, the provider or the update time; the picture is sent under the key "picture" |
| UserStore.FindById | internal/users/user_repository.go:32-40 | a lookup by id finds the row with that id, reports a missing id as "not found", and reports an outage as a failure |
| UserStore.FindByEmail | internal/users/user_repository.go:42-50 | a lookup by e-mail finds a row with exactly that address, and finds one whenever one exists |
| UserStore.Insert | internal/users/user_repository.go:20-24 | saving a new row succeeds exactly when its id and its e-mail are both unused; the table then gains exactly that row and keeps its keys |
| UserStore.Overwrite | internal/users/user_repository.go:20-24 | saving an existing row succeeds exactly when no other row holds its e-mail; only that row changes |
| Users.MergeFieldwise | internal/users/user_service.go:65-85 | after an update, each overridable field takes the incoming value exactly when that value is non-empty and otherwise keeps the stored one; the id and the timestamps never change |
| Users.MergeBlankIsIdentity | internal/users/user_service.go:65-85 | an update that carries no values leaves the row as it was |
| Users.MergeIdempotent | internal/users/user_service.go:65-85 | applying the same update twice gives the same row as applying it once |
| Users.MergeOwnDtoWithStatus | internal/auth/auth_service.go:196-197 | writing an account's own transfer object back with a new status changes only the status |
| Users.MergeOwnDtoWithPassword | internal/auth/auth_service.go:237-238 | writing an account's own transfer object back with a new password changes only the password |
| Users.Create | internal/user/user_service.go:19-42 | a known e-mail gives BadRequest; an outage during the lookup or the save gives InternalServer; the save succeeds exactly when the e-mail and the fresh id are unused; on success exactly one row is added, under the fresh id |
| Users.WithDefaultRole | internal/users/user_service.go:41-43 | an empty role becomes User; every other field, and any role that was given, is kept |
| Users.SaveUser | internal/users/user_service.go:27-54 | as Create, except that the stored account has role User when none was given; no other account is touched |
| Users.UpdateUser | internal/users/user_service.go:56-95 | an unknown id or a failed lookup gives InternalServer "Failed to find user"; a write that is refused (an outage, or another account already holding the merged e-mail) gives InternalServer "Failed to update user"; otherwise the stored row becomes the field-wise merge of the request and is returned; the set of ids never changes |
| Users.UpsertUser | internal/users/user_service.go:97-111 | an account that already has the e-mail is updated in place: it becomes the merge of the request, every other account is unchanged, and this succeeds exactly when the id lookup and the save work; an unknown e-mail goes through SaveUser; a failed e-mail lookup gives InternalServer; the returned account is stored and carries the requested e-mail |
| Users.UpsertTwiceKeepsId | internal/users/user_service.go:97-111 | upserting the same e-mail twice adds no second account and returns the same id both times |
| Users.FindById | internal/users/user_service.go:113-129 | succeeds exactly for a stored id and returns that row; a missing id gives NotFound "User not found"; an outage gives InternalServer |
| Users.FindByEmail | internal/users/user_service.go:131-147 | succeeds exactly when an account has the address, and returns that account; a missing address gives NotFound; an outage gives InternalServer |
| LegacyUser.SaveUser | internal/user/user_service.go:19-42 | the account is stored under the fresh id as given, except that an empty role becomes User and an empty status becomes Pending, the column defaults of internal/user/user.go:14-15 that gorm writes into the created row and the returned account; the e-mail rules and the InternalServer errors for a failed lookup or save are the same as in Users.Create |
| LegacyUser.EmptyRoleBecomesUserInBoth | internal/user/user.go:14-15 | whatever the legacy save stores, the current SaveUser also stores, with the same role; an empty role becomes User in both; when the request names a status the two saves are identical |
| LegacyUser.UpdateUser | internal/user/user_service.go:44-83 | an unknown id or a failed lookup gives InternalServer "Failed to find user"; the update succeeds exactly when the lookup and the save work and no other account holds the merged e-mail, and a refused write gives "Failed to update user"; a success stores and returns the field-wise merge |
| LegacyUser.UpsertUser | internal/user/user_service.go:85-99 | an existing e-mail is updated in place: that account becomes the merge of the request and no other account changes, succeeding exactly when the id lookup and the save work; an unknown e-mail goes through the legacy SaveUser |
| LegacyUser.FindById | internal/user/user_service.go:101-117 | succeeds exactly for a stored id when there is no outage, and returns that row |
| LegacyUser.FindByEmail | internal/user/user_service.go:119-135 | succeeds exactly for a stored address when there is no outage, and returns that account |
| Tokens.TokenDtoRoundTrip | internal/token/token_dto.go:14-34 | converting a token transfer object to a row and back gives the same object |
| Tokens.TokenModelRoundTrip | internal/token/token_dto.go:14-34 | converting a token row to a transfer object and back gives the same row |
| Tokens.CreateVerificationToken | internal/token/token_service.go:36-56 | the new token belongs to the user, has the requested purpose, and expires the configured number of minutes after now; the save succeeds exactly when the token string and the row id are fresh; on success the table gains exactly that row; a failure gives InternalServer and changes nothing |
| Tokens.CreatedTokenLifetime | internal/token/token_service.go:39 | a fresh token is live at its creation and at its exact expiry instant, and expired one second later |
| Tokens.GetToken | internal/token/token_service.go:58-74 | a stored token string gives its row; an unknown one gives NotFound "Token not found"; an outage gives InternalServer |
| Tokens.DeleteTokensForUser | internal/token/token_service.go:76-86 | on success no token of that user remains, whatever its purpose, and every other user's tokens are kept unchanged; an outage gives InternalServer and changes nothing |
| Tokens.DeletedTokensAreGone | internal/token/token_service.go:76-86 | after a user's tokens are deleted, looking up any of them gives NotFound |
| Validation.FlagPrecedence | internal/validation/validation_service.go:96-105 | a rune counts for exactly one class, the first that applies in the order upper, lower, digit, punctuation or symbol |
| Validation.Scan | internal/validation/validation_service.go:95-106 | after the loop, each of the four flags is set exactly when some rune of the password falls in that class |
| Validation.ValidatePassword | internal/validation/validation_service.go:88-113 | a password under 8 bytes gives the length message; a longer one that lacks a class gives the class message; a password is accepted exactly when it is strong |
| Validation.StrongIsMonotone | internal/validation/validation_service.go:88-113 | appending characters to an accepted password keeps it accepted |
| Validation.ByteLengthAppend | internal/validation/validation_service.go:91 | the byte length of a concatenation is the sum of the byte lengths |
| Validation.ByteLengthBounds | internal/validation/validation_service.go:91 | a string has at least one byte and at most four bytes per rune |
| Validation.AllWideBytes | internal/validation/validation_service.go:91 | runes outside the Basic Multilingual Plane take four bytes each |
| Validation.ShortInRunesCanPass | internal/validation/validation_service.go:91 | the length rule counts bytes, so two runes outside the Basic Multilingual Plane already meet the minimum of 8 |
| Validation.ValidateWithPassword | internal/validation/validation_service.go:25-41 | the structural check comes first and gives "Request didn't pass validation"; the request is accepted exactly when it is well-formed and its password is strong |
| Validation.ValidateStructure | internal/validation/validation_service.go:43-50 | a request is accepted exactly when it is well-formed; otherwise the answer is BadRequest |
| Validation.ValidateSignUpRequest | internal/validation/validation_service.go:25-32 | a sign-up request is accepted exactly when it is well-formed and carries a strong password |
| Validation.ValidateSignInRequest | internal/validation/validation_service.go:34-41 | a sign-in request is accepted exactly when it is well-formed and carries a strong password |
| Validation.ValidatePasswordResetRequest | internal/validation/validation_service.go:61-68 | a reset request is accepted exactly when it is well-formed and the new password is strong |
| Validation.ValidateVerificationTokenRequest | internal/validation/validation_service.go:43-50 | accepted exactly when well-formed |
| Validation.ValidateEmailVerificationRequest | internal/validation/validation_service.go:52-59 | accepted exactly when well-formed |
| Validation.ValidateSynthesisRequest | internal/validation/validation_service.go:70-77 | accepted exactly when well-formed |
| Validation.ValidateModelRequest | internal/validation/validation_service.go:79-86 | accepted exactly when well-formed |
| Jwt.CreateUserClaims | internal/auth/jwt/jwt_service.go:74-83 | the claims name the account as both id and subject, name the application as issuer, and expire the configured number of hours after now; they carry no issued-at and no not-before claim |
| Jwt.GenerateJWT | internal/auth/jwt/jwt_service.go:38-52 | succeeds exactly when the signer signs the account's claims under the secret key; a signing failure gives an InternalServer error with an empty message |
| Jwt.ValidateToken | internal/auth/jwt/jwt_service.go:54-72 | a token without exactly three dot-separated segments makes the call panic, because the parser then returns no token object and its claims are read anyway; otherwise the claims come back exactly for a decodable token with an HMAC method and the service's key whose expiry has not passed and whose issued-at and not-before instants (when present) are not after now; a wrong key names the error even when a time claim also fails, and among failing time claims the last checked (expiry, issued-at, not-before) names it; every failure is an untyped error, answered as a bare 500 when it reaches the handler |
| Jwt.DotlessTokenPanics | internal/auth/jwt/jwt_service.go:57-65 | a token with no dot at all makes validation panic rather than return an error |
| Jwt.EarlyTokenRefused | internal/auth/jwt/user_claims.go:5-8 | a correctly signed token whose issued-at or not-before instant lies after now is refused, whatever its expiry |
| Jwt.IssuedTokenValidates | internal/auth/jwt/jwt_service.go:38-72 | up to its expiry, a token the service issued validates to the claims it was issued with, which name the account |
| Jwt.IssuedTokenExpires | internal/auth/jwt/jwt_service.go:38-72 | after its expiry, a token the service issued is refused |
| Sso.BuildUserModel | internal/auth/sso/github_sso_provider.go:94-110 | the GitHub login, e-mail and avatar become the username, e-mail and picture, with everything else empty; an undecodable body gives InternalServer |
| Sso.FirstUsable | internal/auth/sso/github_sso_provider.go:85-91 | the position found is that of the first address that is both primary and verified; none is found exactly when there is no such address |
| Sso.FetchUserEmail | internal/auth/sso/github_sso_provider.go:63-92 | a transport failure gives BadGateway, and a read or decode failure gives InternalServer; otherwise the first primary, verified address is returned, or NotFound when there is none |
| Sso.FetchUserInfo | internal/auth/sso/github_sso_provider.go:34-61 | the profile's own e-mail is kept when it is non-empty; only when it is empty is the e-mail endpoint asked, and that endpoint's error passes through |
| Sso.EmailEndpointUnusedWhenProfileHasEmail | internal/auth/sso/github_sso_provider.go:53-58 | when the profile has an e-mail, the answer of the e-mail endpoint cannot change the result |
| AuthService.SendTokenMail | internal/auth/auth_service.go:273-298 | a token of the flow's purpose is issued to the account, and a mail is sent to the account's address with the link (base URL followed by the token); the mailer's answer is the result; a failed issue sends nothing and changes nothing |
| AuthService.SignUp | internal/auth/auth_service.go:53-88 | a taken address, or a failed lookup, gives BadRequest "User with given email already exists"; a hashing error passes through; for a free address with a digest, the pending user-role account is saved exactly when the users table takes the row, and it stays whatever happens to the token and the mail; a verification token is issued and mailed exactly when its uuids are fresh and the tokens table works, and otherwise the answer is InternalServer; on success no other account changes and the new account owns exactly one token |
| AuthService.SignIn | internal/auth/auth_service.go:90-123 | a failed lookup gives Unauthorized, and an unknown address gives NotFound; for a known account the status is checked before the password, and only an active account whose password matches gets the signed token |
| AuthService.SsoSignIn | internal/auth/auth_service.go:125-134 | an unknown provider gives BadRequest; otherwise the result is the provider's authorisation URL for the fixed state string |
| AuthService.UpsertAndSign | internal/auth/auth_service.go:159-168 | the account with the address becomes its merge with the profile, or a new address is stored under the fresh id, each exactly when the users table works, with no other account touched; the token returned is the one signed for the stored account; a failed upsert gives its error and changes nothing |
| AuthService.SsoCallback | internal/auth/auth_service.go:136-171 | an unknown provider gives BadRequest and changes nothing; an exchange or profile error passes through and changes nothing; accounts with another address are never touched; an account that has the profile's address becomes its merge with the active, provider-tagged profile, and a new address is saved under the fresh id, each exactly when the users table works; the token returned is the one signed for that account; no token is touched |
| AuthService.CheckToken | internal/auth/auth_service.go:176-189 | a token is accepted exactly when it exists, has the flow's purpose and is not past its expiry instant; the purpose is checked before the expiry, and the expiry instant itself is accepted |
| AuthService.EmailVerification | internal/auth/auth_service.go:173-206 | a token that fails its checks changes nothing; an owner that cannot be loaded gives the lookup's own error (InternalServer for an outage, NotFound "User not found" for a missing account) and changes nothing; otherwise the owner becomes active (unless the account write fails, which is ignored), and then every token of the owner is revoked and all other tokens are kept, while a revocation outage gives InternalServer, keeps the tokens and keeps the activation; the call succeeds exactly when the token checks pass, the owner loads and the revocation works |
| AuthService.PasswordReset | internal/auth/auth_service.go:208-250 | a token that fails its checks changes nothing; an owner that cannot be loaded gives success with no change; for an owner that loads, a hashing error passes through, a refused write gives InternalServer, and otherwise the password becomes the digest of the new one (exactly the digest under bcrypt's guarantee) and every token of the owner is revoked, with a failed revocation reported but the new password kept |
| AuthService.SendPasswordResetToken | internal/auth/auth_service.go:252-271 | an unknown address gives NotFound and issues nothing; for a known address a password-reset token is issued to that account, and the reset link is mailed to it, exactly when the token's uuids are fresh and the tokens table works, and otherwise the answer is InternalServer; accounts never change |
| AuthService.SignUpVerifySignIn | internal/auth/auth_service.go:53-206 | after a sign-up, verifying the mailed token before it expires activates the new account; the account can then sign in with its password, and the bearer token it gets validates to the new account's id |
| AuthService.ResetThenSignIn | internal/auth/auth_service.go:208-271 | the token mailed for an address, used before it expires, sets the owner's password to the digest of the new one and cannot be used again; an active owner then signs in with the new password |
| AuthService.SsoCallbackTwiceKeepsAccount | internal/auth/auth_service.go:136-171 | signing in twice with profiles that have the same address creates at most one account: the second callback adds none and signs its token for the account the first one stored |
| AuthService.SsoCallbackTokenValidates | internal/auth/auth_service.go:136-171 | until it expires, the token a callback returns validates to the account that now holds the profile's address |
| AuthService.SsoSignInAndCallbackAgree | internal/auth/auth_service.go:125-171 | the sign-in redirect and the callback refuse the same providers, with the same error, and the refusing callback changes nothing |
| Bearer.ExtractToken | internal/auth/auth_middleware.go:25-30 | nothing is extracted exactly when the header is empty or contains no "Bearer "; otherwise the token is the header after its first seven bytes |
| Bearer.ExtractTokenOfBearer | internal/auth/auth_middleware.go:25-30 | a header "Bearer " followed by a token gives back exactly that token |
| Bearer.ExtractTokenAtFixedOffset | internal/router/middleware/auth.go:13-17 | a header where "Bearer " does not start the string still passes the presence test, and its first seven bytes are cut off anyway |
| AuthMiddleware.AnyRole | internal/auth/auth_middleware.go:80-84 | the loop over the route's roles finds the account's role exactly when the role is in the list |
| AuthMiddleware.CheckUserRole | internal/auth/auth_middleware.go:75-87 | a route admits an account exactly when it lists no roles or lists the account's role |
| AuthMiddleware.FetchUser | internal/auth/auth_middleware.go:57-73 | an account that cannot be loaded gives 401 "User not found"; an inactive one gives 401 "User is not active"; an active one whose role the route does not list gives 403 "Not enough permissions"; the request proceeds exactly when the account is active and its role is admitted, with the stored account attached |
| AuthMiddleware.OpenRoute | internal/auth/auth_middleware.go:23-38 | a request without a token proceeds anonymously, and so does one whose token fails validation; a token whose validation panics crashes the request; a valid token is decided exactly as FetchUser decides for a route with no roles, so it never proceeds anonymously and never gets a 403 |
| AuthMiddleware.ProtectedRoute | internal/auth/auth_middleware.go:40-55 | a missing token gives 401 "Missing authentication token", and an invalid one gives 401 "Invalid or expired JWT"; a token whose validation panics crashes the request; a valid token is decided exactly as FetchUser decides for the route's roles; the request proceeds exactly when the token is valid and names a loadable, active account whose role the route admits |
| AuthMiddleware.DotlessBearerCrashes | internal/auth/auth_middleware.go:23-55 | the header "Bearer abc" crashes both the open and the protected gate instead of being answered |
| AuthMiddleware.EarlyBearerRefused | internal/auth/auth_middleware.go:23-55 | a correctly signed bearer token that is not valid yet gets 401 "Invalid or expired JWT" on a protected route and proceeds anonymously on an open one |
| AuthMiddleware.OpenIsProtectedWithoutRoles | internal/auth/auth_middleware.go:23-55 | once a valid token is presented, the open route behaves as a protected route that lists no roles |
| AuthMiddleware.MoreRolesAdmitMore | internal/auth/auth_middleware.go:75-87 | an account admitted by a route's roles is still admitted when more roles are added |
| RouterMiddleware.TokenId | internal/router/middleware/auth.go:12-23 | an id is recorded exactly when the header carries a token that validates, and it is the id in the token's claims |
| RouterMiddleware.OpenRoute | internal/router/middleware/auth.go:10-26 | the request crashes exactly when the token's validation panics; otherwise it goes on, with the id of a valid token recorded and otherwise none |
| RouterMiddleware.ProtectedRoute | internal/router/middleware/auth.go:28-44 | a missing token gives 401 "Missing authentication token", and an invalid one gives 401 "Invalid or expired JWT"; the request crashes exactly when the token's validation panics, and goes on exactly when the token is valid |
| RouterMiddleware.GatesPanicAlike | internal/router/middleware/auth.go:10-44 | the token-only gates crash on exactly the headers on which the account-aware gates crash |
| RouterMiddleware.AccountGateIsStricter | internal/router/middleware/auth.go:28-44 | whatever the account-aware gate admits, the token-only gate admits too, recording the id of the attached account |
| Models.ModelDtoRoundTrip | internal/model/model_dto.go:13-31 | converting a model transfer object to a row and back gives the same object |
| Models.ModelModelRoundTrip | internal/model/model_dto.go:13-31 | converting a model row to a transfer object and back gives the same row |
| Models.IndexOf | internal/model/model_repository.go:27-35 | the position found holds the model with that id; none is found exactly when no model has that id |
| Models.SaveModel | internal/model/model_service.go:29-57 | a known (name, language) pair gives BadRequest; a failed lookup gives InternalServer "Failed to fetch model by name and language"; any other refusal gives InternalServer "Failed to save model" and changes nothing; on success the new model, with the fresh id and the current time, is appended and nothing else changes; the catalogue keeps its keys unique |
| Models.OverrideFieldwise | internal/model/model_service.go:84-94 | a non-empty url, name or language replaces the stored one and an empty one keeps it; the id and the creation time are kept; overriding twice is the same as once |
| Models.UpdateModel | internal/model/model_service.go:59-104 | an unknown id gives NotFound; the two lookup outages give their InternalServer texts; BadRequest comes exactly when a different model holds the requested pair; a refused write (an outage, or a merged pair that collides and is refused by the unique index) gives InternalServer "Failed to update model" and changes nothing; on success only that model changes, to its field-wise override |
| Models.PartialRenameCanCollide | internal/model/model_service.go:73-94 | a request that names only a new name passes the duplicate check, yet the merged pair collides, and the update fails with InternalServer |
| Models.DeleteModel | internal/model/model_service.go:106-128 | an unknown id gives NotFound; on success exactly the model with that id is gone and every other model remains |
| Models.GetModelById | internal/model/model_service.go:130-146 | succeeds exactly for a stored id, returning that model; a missing id gives NotFound; an outage gives InternalServer "Failed to fetch models" |
| Models.GetModels | internal/model/model_service.go:148-164 | the result lists every model in storage order, one transfer object per row |
| Models.SavedModelIsFound | internal/model/model_service.go:29-57 | a model just saved can be fetched back by its new id, and the fetch returns what the save returned |
| History.HistoryDtoRoundTrip | internal/history/history_record_dto.go:13-31 | converting a history transfer object to a row and back gives the same object |
| History.HistoryModelRoundTrip | internal/history/history_record_dto.go:13-31 | converting a history row to a transfer object and back gives the same row |
| History.Owned | internal/history/history_repository.go:28-36 | a user's listing holds exactly that user's records |
| History.Window | internal/history/history_repository.go:31 | offset and limit select the records from the offset on, at most limit of them, in listing order |
| History.FilterKeepsValid | internal/history/history_repository.go:47-55 | deleting records from a listing keeps it newest first with unique ids |
| History.PlaceKeepsValid | internal/history/history_repository.go:23-26 | inserting a record with a fresh id keeps the listing newest first with unique ids |
| History.SaveHistoryRecord | internal/history/history_service.go:24-37 | a record whose id is already stored replaces that row; any other record is inserted under a fresh id, stamped with the current time when its time is unset; the table keeps unique ids and its listing order; every refusal gives InternalServer "Failed to save history record" and changes nothing |
| History.TotalPagesIsCeiling | internal/history/history_service.go:55-58 | the page count is the record count divided by the page size, rounded up: the pages hold every record and the last page is not empty |
| History.HasMoreMeansRecordsRemain | internal/history/history_service.go:70 | there is a further page exactly when records remain after the current one |
| History.ToDtos | internal/history/history_service.go:60-63 | the page's rows become transfer objects one for one and in order |
| History.GetHistoryRecordsByUserId | internal/history/history_service.go:39-75 | the page holds the user's records from offset (page-1)*limit, at most limit of them, in listing order; the total counts all of the user's records; the page count is the ceiling, so 0 for a user with no records; "has more" holds exactly when records remain; a failed count passes on an untyped error |
| History.DeleteHistory | internal/history/history_service.go:77-88 | every record of the user goes and every other record stays |
| History.DeleteHistoryRecordById | internal/history/history_service.go:90-101 | only a record with that id that belongs to that user goes; a record with that id belonging to someone else stays |

## Left out

- I/O is not modelled: HTTP, logging, SMTP delivery, the database driver and process start-up. The mailer is a function from mail to result. The clock is an integer of Unix seconds. Configuration is a value.
- bcrypt, the JWT library's signing and parsing, the OAuth2 client and the GitHub HTTP GETs are inputs. They are given as functions. The properties that need them to behave assume the `Sound` and `Consistent` predicates.
- The struct-tag validator is a boolean input. Unicode's character categories are inputs (`CharClasses`).
- Database error texts are not modelled. A failing count in the history service is passed on as an untyped error with an empty message.
- Gorm timestamps are not modelled: `CreatedAt` and `UpdatedAt` of user rows are copied as given.
- Headers are strings with one character per byte.
- Controllers, the router, the synthesis service and the e-mail service are outside this core. The exception is the history controller's clamping of page and limit to at least 1, which appears as a precondition.
- The `user == nil` branch of HandleSendPasswordResetToken (internal/auth/auth_service.go:260-263) is not modelled. It cannot be reached, because a lookup that returns no error always returns an account.
- In three places the code, which the model follows, differs from the intended design:
  - sign-in answers an unknown address with NotFound instead of Unauthorized;
  - hashing failures are passed on untyped instead of as InternalServer;
  - the reset-token endpoint reveals unknown addresses.
- History.SaveHistoryRecord: a record with a non-empty id that is not stored is inserted under the fresh id. Whether gorm `Save` keeps the given id there depends on the gorm version, which is not part of this model. The only caller in this core, internal/synthesis/synthesis_service.go:65-68, passes a record without an id, so the difference never shows there.
- History.GetHistoryRecordsByUserId: requires page >= 1 and limit >= 1, which the history controller guarantees. It does not model the int overflow of (page-1)*limit.
- AuthService.SsoCallback: the account is stated to be tagged with the provider only when the provider's name is non-empty. An empty name leaves the stored provider unchanged.
- AuthService.SignUp: the outcome of the mail service is returned as is. The contract says nothing about what the mailer does with the mail.
- Jwt.ValidateToken: the expiry error is "token is expired" without the library's "by <duration>" suffix. The text of a validation error never reaches a response: every gate discards it.
- Users.Create: the id of the request is ignored and the row is inserted under the fresh id. gorm `Save` with a non-empty id would update the row with that id instead. Every caller in this core passes a request without an id (sign-up and the insert path of the SSO upsert), so the difference never shows there.
- Users.SaveUser: internal/users/user.go, the schema of the current package's table, is not part of this model, so no column default is applied there beyond the service's own role defaulting; an empty status is stored as given.
- Users.UpdateUser: the gorm `Save` of a row whose id has vanished between lookup and write is not modelled. The lookup and the write happen in one step here.

=== FILE: auth_middleware.dfy ===
/** The account-aware request gates (internal/auth/auth_middleware.go): the
    bearer token is validated, then the account it names is loaded from the
    legacy user directory and must be active and, on protected routes, hold
    one of the route's roles. */
module AuthMiddleware {
  import opened ServiceErrors
  import opened UserTypes
  import UserStore
  import LegacyUser
  import Jwt
  import Bearer

  const MsgMissingToken := "Missing authentication token"
  const MsgInvalidToken := "Invalid or expired JWT"
  const MsgUserNotFound := "User not found"
  const MsgNotActive := "User is not active"
  const MsgForbidden := "Not enough permissions"

  /** What a gate does with the request: hand it on (with the account attached,
      or anonymously), answer it with a status and an error message, or panic
      (the token validation panics and nothing recovers). */
  datatype Gate = Proceed(user: Option<UserDto>) | Deny(status: int, message: string) | Crash

  /** The `range` loop over the route's roles. */
  function AnyRole(role: Role, roles: seq<Role>): (b: bool)
    ensures b <==> role in roles
  {
    if |roles| == 0 then false
    else roles[0] == role || AnyRole(role, roles[1..])
  }

  /** checkUserRole: a route that lists no roles admits every role. */
  function CheckUserRole(user: UserDto, roles: seq<Role>): (b: bool)
    ensures b <==> |roles| == 0 || user.role in roles
  {
    |roles| == 0 || AnyRole(user.role, roles)
  }

  /** fetchUser: lookup, then status, then role. */
  function FetchUser(db: UserStore.Directory, id: string, roles: seq<Role>): (g: Gate)
    ensures LegacyUser.FindById(db, id).Err? ==> g == Deny(StatusUnauthorized, MsgUserNotFound)
    ensures LegacyUser.FindById(db, id).Ok? && LegacyUser.FindById(db, id).value.status != Active ==>
              g == Deny(StatusUnauthorized, MsgNotActive)
    ensures LegacyUser.FindById(db, id).Ok? && LegacyUser.FindById(db, id).value.status == Active
            && !CheckUserRole(LegacyUser.FindById(db, id).value, roles) ==>
              g == Deny(StatusForbidden, MsgForbidden)
    ensures g.Proceed? <==>
              && LegacyUser.FindById(db, id).Ok?
              && LegacyUser.FindById(db, id).value.status == Active
              && CheckUserRole(LegacyUser.FindById(db, id).value, roles)
    ensures g.Proceed? ==>
              && g.user.Some?
              && id in db.accounts && ToUserModel(g.user.value) == db.accounts[id]
              && g.user.value.status == Active
              && (|roles| == 0 || g.user.value.role in roles)
    ensures g.Deny? && g.status == StatusForbidden ==>
              g.message == MsgForbidden && |roles| > 0 && id in db.accounts
              && db.accounts[id].status == Active && db.accounts[id].role !in roles
  {
    match LegacyUser.FindById(db, id)
    case Err(_) => Deny(StatusUnauthorized, MsgUserNotFound)
    case Ok(user) =>
      if user.status != Active then Deny(StatusUnauthorized, MsgNotActive)
      else if !CheckUserRole(user, roles) then Deny(StatusForbidden, MsgForbidden)
      else Proceed(Some(user))
  }

  /** OpenRoute: without a usable token the request goes on anonymously; with
      one, the account it names must exist and be active. */
  function OpenRoute(db: UserStore.Directory, jwt: Jwt.JwtService, now: int, header: string): (g: Gate)
    ensures Bearer.ExtractToken(header).None? ==> g == Proceed(None)
    ensures Bearer.ExtractToken(header).Some? ==>
              var v := Jwt.ValidateToken(jwt, Bearer.ExtractToken(header).value, now);
              && (v.Panics? ==> g == Crash)
              && (v.Returns? && v.result.Err? ==> g == Proceed(None))
              // a valid token is answered as a protected route listing no roles answers it
              && (Jwt.Accepted(v) ==> g == FetchUser(db, v.result.value.id, []))
    ensures g.Crash? <==>
              Bearer.ExtractToken(header).Some? && Jwt.ValidateToken(jwt, Bearer.ExtractToken(header).value, now).Panics?
    // a valid token never passes anonymously, and the open route never forbids
    ensures g == Proceed(None) ==>
              || Bearer.ExtractToken(header).None?
              || (Jwt.ValidateToken(jwt, Bearer.ExtractToken(header).value, now).Returns?
                  && Jwt.ValidateToken(jwt, Bearer.ExtractToken(header).value, now).result.Err?)
    ensures g.Deny? ==> g.status == StatusUnauthorized
    ensures g.Proceed? && g.user.Some? ==>
              && Bearer.ExtractToken(header).Some?
              && var v := Jwt.ValidateToken(jwt, Bearer.ExtractToken(header).value, now);
              && Jwt.Accepted(v) && v.result.value.id in db.accounts
              && ToUserModel(g.user.value) == db.accounts[v.result.value.id]
              && g.user.value.status == Active
  {
    match Bearer.ExtractToken(header)
    case None => Proceed(None)
    case Some(token) =>
      match Jwt.ValidateToken(jwt, token, now)
      case Panics => Crash
      case Returns(Err(_)) => Proceed(None)
      case Returns(Ok(claims)) => FetchUser(db, claims.id, [])
  }

  /** ProtectedRoute: a usable token naming an active account of one of the
      roles is required. */
  function ProtectedRoute(db: UserStore.Directory, jwt: Jwt.JwtService, now: int, header: string,
                          roles: seq<Role>): (g: Gate)
    ensures Bearer.ExtractToken(header).None? ==> g == Deny(StatusUnauthorized, MsgMissingToken)
    ensures Bearer.ExtractToken(header).Some? ==>
              var v := Jwt.ValidateToken(jwt, Bearer.ExtractToken(header).value, now);
              && (v.Panics? ==> g == Crash)
              && (v.Returns? && v.result.Err? ==> g == Deny(StatusUnauthorized, MsgInvalidToken))
              // a valid token leaves the decision to the account it names
              && (Jwt.Accepted(v) ==> g == FetchUser(db, v.result.value.id, roles))
    ensures g.Proceed? <==>
              && Bearer.ExtractToken(header).Some?
              && var v := Jwt.ValidateToken(jwt, Bearer.ExtractToken(header).value, now);
              && Jwt.Accepted(v)
              && v.result.value.id in db.accounts && UserStore.QueryById !in db.faults
              && db.accounts[v.result.value.id].status == Active
              && (|roles| == 0 || db.accounts[v.result.value.id].role in roles)
    ensures g.Proceed? ==>
              && g.user.Some?
              && var v := Jwt.ValidateToken(jwt, Bearer.ExtractToken(header).value, now);
              && ToUserModel(g.user.value) == db.accounts[v.result.value.id]
  {
    match Bearer.ExtractToken(header)
    case None => Deny(StatusUnauthorized, MsgMissingToken)
    case Some(token) =>
      match Jwt.ValidateToken(jwt, token, now)
      case Panics => Crash
      case Returns(Err(_)) => Deny(StatusUnauthorized, MsgInvalidToken)
      case Returns(Ok(claims)) => FetchUser(db, claims.id, roles)
  }

  /** A bearer header whose token has no dots panics both gates. */
  lemma {:induction false} DotlessBearerCrashes(db: UserStore.Directory, jwt: Jwt.JwtService, now: int,
                                                roles: seq<Role>)
    ensures OpenRoute(db, jwt, now, "Bearer abc") == Crash
    ensures ProtectedRoute(db, jwt, now, "Bearer abc", roles) == Crash
  {
    Bearer.ExtractTokenOfBearer("abc");
    assert Bearer.Prefix + "abc" == "Bearer abc";
    Jwt.DotlessTokenPanics(jwt, "abc", now);
  }

  /** A correctly signed bearer token that is not valid yet (its not-before or
      issued-at instant lies after now) is refused like any invalid one. */
  lemma {:induction false} EarlyBearerRefused(db: UserStore.Directory, jwt: Jwt.JwtService, now: int,
                                              roles: seq<Role>, c: Jwt.Claims)
    requires Jwt.Consistent(jwt.codec)
    requires jwt.codec.sign(c, jwt.config.secretKey).Some?
    requires Jwt.UsedBeforeIssued(c, now) || Jwt.NotYetValid(c, now)
    ensures var header := Bearer.Prefix + jwt.codec.sign(c, jwt.config.secretKey).value;
            && ProtectedRoute(db, jwt, now, header, roles) == Deny(StatusUnauthorized, MsgInvalidToken)
            && OpenRoute(db, jwt, now, header) == Proceed(None)
  {
    var token := jwt.codec.sign(c, jwt.config.secretKey).value;
    Bearer.ExtractTokenOfBearer(token);
    Jwt.EarlyTokenRefused(jwt, c, now);
  }

  /** Once a valid token is presented the two gates agree, the open one acting
      as a protected route that lists no roles. */
  lemma OpenIsProtectedWithoutRoles(db: UserStore.Directory, jwt: Jwt.JwtService, now: int, header: string)
    requires Bearer.ExtractToken(header).Some?
    requires Jwt.Accepted(Jwt.ValidateToken(jwt, Bearer.ExtractToken(header).value, now))
    ensures OpenRoute(db, jwt, now, header) == ProtectedRoute(db, jwt, now, header, [])
  {
  }

  /** Adding roles to a route that lists some never turns a pass into a refusal. */
  lemma {:induction false} MoreRolesAdmitMore(db: UserStore.Directory, jwt: Jwt.JwtService, now: int,
                                              header: string, roles: seq<Role>, extra: seq<Role>)
    requires |roles| > 0
    requires ProtectedRoute(db, jwt, now, header, roles).Proceed?
    ensures ProtectedRoute(db, jwt, now, header, roles + extra) == ProtectedRoute(db, jwt, now, header, roles)
  {
    var claims := Jwt.ValidateToken(jwt, Bearer.ExtractToken(header).value, now).result.value;
    var u := LegacyUser.FindById(db, claims.id).value;
    assert u.role in roles + extra;
  }
}

=== FILE: auth_service.dfy ===
/** The authentication orchestrator (internal/auth/auth_service.go): sign-up with
    e-mail verification, password sign-in, single sign-on, e-mail verification,
    password reset and the reset-link mail. It runs over the users table and the
    tokens table; the clock, bcrypt, the JWT library, the SSO providers, the
    mailer and the uuid generator are inputs. */
module AuthService {
  import opened ServiceErrors
  import opened UserTypes
  import opened UserStore
  import Users
  import Tokens
  import Jwt
  import Sso
  import Validation

  const MsgEmailTaken := "User with given email already exists"
  const MsgInvalidCredentials := "Invalid username or password"
  const MsgEmailNotVerified := "Email not verified"
  const MsgUnsupportedProvider := "Unsupported SSO provider"
  const MsgInvalidPurpose := "Invalid token purpose"
  const MsgEmailTokenExpired := "Email token expired"
  const MsgPasswordTokenExpired := "Password token expired"
  /** The fixed OAuth2 state parameter of every authorisation URL. */
  const SsoState := "state-string"

  const VerificationSubject := "Email verification"
  const VerificationTemplate := "email_verification.html"
  const ResetSubject := "Password reset"
  const ResetTemplate := "reset_password.html"

  /** bcrypt: `hash` is GenerateFromPassword (its error passed on as it is) and
      `matches(digest, password)` is CompareHashAndPassword succeeding. */
  datatype Hasher = Hasher(hash: string -> Result<string>, matches: (string, string) -> bool)

  /** What bcrypt guarantees: a digest is non-empty and matches the password it
      was made from, and the empty digest (an SSO account's) matches nothing. */
  ghost predicate Sound(h: Hasher) {
    && (forall p :: h.hash(p).Ok? ==> h.hash(p).value != "" && h.matches(h.hash(p).value, p))
    && (forall p :: !h.matches("", p))
  }

  /** A templated e-mail as handed to the mail service. */
  datatype Mail = Mail(to: string, subject: string, template: string, variables: map<string, string>)

  /** EMAIL_VERIFICATION_URL, PASSWORD_RESET_URL and VERIFICATION_TOKEN_DURATION_MIN. */
  datatype Config = Config(emailVerificationUrl: string, passwordResetUrl: string, tokenDurationMins: int)

  /** Everything outside the two tables: the current Unix time, the
      configuration, and the collaborating services. */
  datatype Env = Env(
    now: int,
    cfg: Config,
    hasher: Hasher,
    jwt: Jwt.JwtService,
    mailer: Mail -> Result<()>,
    providers: map<string, Sso.SsoProvider>)

  /** The uuids a sign-up draws: the account id and the token's pair. */
  datatype NewIds = NewIds(user: string, token: Tokens.Fresh)

  datatype State = State(users: Directory, tokens: Tokens.TokenStore)

  predicate Valid(s: State) {
    UserStore.Valid(s.users) && Tokens.Valid(s.tokens)
  }

  /** The outages an operation meets are those of the tables it started from. */
  predicate SameFaults(s: State, t: State) {
    s.users.faults == t.users.faults && s.tokens.faults == t.tokens.faults
  }

  /** Every token belongs to an existing account (accounts are never deleted, and
      tokens are only issued to accounts just found or just created). */
  predicate TokensOwned(s: State) {
    forall k :: k in s.tokens.rows ==> s.tokens.rows[k].userId in s.users.accounts
  }

  /** The outcome of an operation: the new tables, the mail handed to the mail
      service if any, and the result. */
  datatype Reply<+T> = Reply(state: State, mail: Option<Mail>, result: Result<T>)

  function VerificationMail(cfg: Config, user: UserDto, token: string): Mail {
    Mail(user.email, VerificationSubject, VerificationTemplate,
         map["user_name" := user.username, "verification_link" := cfg.emailVerificationUrl + token])
  }

  function ResetMail(cfg: Config, user: UserDto, token: string): Mail {
    Mail(user.email, ResetSubject, ResetTemplate,
         map["password_reset_link" := cfg.passwordResetUrl + token])
  }

  function LinkMail(cfg: Config, user: UserDto, purpose: Tokens.Purpose, token: string): Mail {
    match purpose
    case EmailVerification => VerificationMail(cfg, user, token)
    case PasswordReset => ResetMail(cfg, user, token)
  }

  /** The row CreateVerificationToken stores for these inputs. */
  function IssuedToken(env: Env, userId: string, purpose: Tokens.Purpose, uuids: Tokens.Fresh): Tokens.Token {
    Tokens.Token(uuids.id, userId, uuids.token, purpose, env.now,
                 env.now + env.cfg.tokenDurationMins * Tokens.SecondsPerMinute)
  }

  datatype Issued = Issued(tokens: Tokens.TokenStore, mail: Option<Mail>, result: Result<()>)

  /** sendVerificationEmail and sendResetPasswordEmail: issue a token of the
      purpose for the account, then mail it the link, the base URL followed by
      the token. */
  function SendTokenMail(tokens: Tokens.TokenStore, env: Env, user: UserDto, purpose: Tokens.Purpose,
                         uuids: Tokens.Fresh): (o: Issued)
    requires Tokens.Valid(tokens)
    ensures Tokens.Valid(o.tokens) && o.tokens.faults == tokens.faults
    ensures o.mail.None? ==> o.tokens == tokens && o.result == Err(InternalServer(Tokens.MsgSaveFailed))
    ensures o.mail.Some? <==>
              Tokens.QuerySave !in tokens.faults && uuids.token !in tokens.rows
              && !Tokens.IdInUse(tokens, uuids.id)
    ensures o.mail.Some? ==>
              && o.tokens.rows == tokens.rows[uuids.token := IssuedToken(env, user.id, purpose, uuids)]
              && o.mail.value.to == user.email
              && o.mail.value == LinkMail(env.cfg, user, purpose, uuids.token)
              && o.result == env.mailer(o.mail.value)
  {
    var step := Tokens.CreateVerificationToken(tokens, user.id, purpose, env.now, env.cfg.tokenDurationMins, uuids);
    match step.result
    case Err(e) => Issued(step.state, None, Err(e))
    case Ok(t) =>
      var m := LinkMail(env.cfg, user, purpose, t.token);
      Issued(step.state, Some(m), env.mailer(m))
  }

  /** The transfer object sign-up saves: a pending user-role account. */
  function PendingAccount(req: Validation.SignUpRequest, digest: string): UserDto {
    NewDto(req.email, digest, req.username, RoleUser, Pending, "", "")
  }

  /** HandleSignUp. Any failure of the e-mail lookup other than "not found" is
      reported as if the address were taken. The account, once saved, stays
      even when issuing the token or mailing it fails afterwards. */
  function SignUp(s: State, env: Env, req: Validation.SignUpRequest, ids: NewIds): (r: Reply<()>)
    requires Valid(s)
    ensures Valid(r.state) && SameFaults(s, r.state)
    ensures TokensOwned(s) ==> TokensOwned(r.state)
    ensures QueryByEmail in s.users.faults || HasEmail(s.users, req.email) ==>
              r == Reply(s, None, Err(BadRequest(MsgEmailTaken)))
    ensures QueryByEmail !in s.users.faults && !HasEmail(s.users, req.email)
            && env.hasher.hash(req.password).Err? ==>
              r == Reply(s, None, Err(env.hasher.hash(req.password).error))
    // a free address with a digest is saved whenever the table takes the row,
    // whatever happens to the token and the mail afterwards
    ensures QueryByEmail !in s.users.faults && !HasEmail(s.users, req.email)
            && env.hasher.hash(req.password).Ok? ==>
              var row := Users.NewRow(PendingAccount(req, env.hasher.hash(req.password).value), ids.user);
              && (QuerySave in s.users.faults || ids.user in s.users.accounts ==>
                    r == Reply(s, None, Err(InternalServer(Users.MsgSaveFailed))))
              && (QuerySave !in s.users.faults && ids.user !in s.users.accounts ==>
                    && r.state.users.accounts == s.users.accounts[ids.user := row]
                    && (r.mail.Some? <==>
                          Tokens.QuerySave !in s.tokens.faults && ids.token.token !in s.tokens.rows
                          && !Tokens.IdInUse(s.tokens, ids.token.id))
                    && (r.mail.None? ==> r.result == Err(InternalServer(Tokens.MsgSaveFailed)))
                    && (r.mail.Some? ==> r.result == env.mailer(r.mail.value)))
    ensures r.state.users.accounts.Keys <= s.users.accounts.Keys + {ids.user}
    ensures r.mail.None? ==> r.state.tokens == s.tokens
    ensures r.result.Ok? ==>
              && env.hasher.hash(req.password).Ok?
              && ids.user !in s.users.accounts
              && ids.user in r.state.users.accounts
              && var a := r.state.users.accounts[ids.user];
              && a.email == req.email && a.username == req.username
              && a.password == env.hasher.hash(req.password).value
              && a.role == RoleUser && a.status == Pending && a.provider == ""
              && (forall k :: k in s.users.accounts ==>
                    k in r.state.users.accounts && r.state.users.accounts[k] == s.users.accounts[k])
              && r.state.tokens.rows
                 == s.tokens.rows[ids.token.token := IssuedToken(env, ids.user, Tokens.EmailVerification, ids.token)]
              && r.mail.Some? && r.mail.value.to == req.email
              && r.mail.value.subject == VerificationSubject
              && "verification_link" in r.mail.value.variables
              && r.mail.value.variables["verification_link"] == env.cfg.emailVerificationUrl + ids.token.token
              // the new account owns exactly one token
              && (TokensOwned(s) ==>
                    forall k :: k in r.state.tokens.rows && r.state.tokens.rows[k].userId == ids.user ==>
                      k == ids.token.token)
  {
    match Users.FindByEmail(s.users, req.email)
    case Ok(_) => Reply(s, None, Err(BadRequest(MsgEmailTaken)))
    case Err(e) =>
      if !e.NotFound? then Reply(s, None, Err(BadRequest(MsgEmailTaken)))
      else
        match env.hasher.hash(req.password)
        case Err(he) => Reply(s, None, Err(he))
        case Ok(digest) =>
          var saved := Users.SaveUser(s.users, PendingAccount(req, digest), ids.user);
          match saved.result
          case Err(se) => Reply(s, None, Err(se))
          case Ok(user) =>
            var sent := SendTokenMail(s.tokens, env, user, Tokens.EmailVerification, ids.token);
            Reply(State(saved.state, sent.tokens), sent.mail, sent.result)
  }

  /** HandleSignIn. The status is checked before the password, and an unknown
      address gives the lookup's own NotFound error; only a failed lookup and a
      wrong password give "Invalid username or password". */
  function SignIn(s: State, env: Env, req: Validation.SignInRequest): (r: Result<string>)
    requires Valid(s)
    ensures QueryByEmail in s.users.faults ==> r == Err(Unauthorized(MsgInvalidCredentials))
    ensures QueryByEmail !in s.users.faults && !HasEmail(s.users, req.email) ==>
              r == Err(NotFound(Users.MsgUserNotFound))
    ensures QueryByEmail !in s.users.faults ==>
              forall k :: k in s.users.accounts && s.users.accounts[k].email == req.email ==>
                var u := s.users.accounts[k];
                && (u.status != Active ==> r == Err(Unauthorized(MsgEmailNotVerified)))
                && (u.status == Active && !env.hasher.matches(u.password, req.password) ==>
                      r == Err(Unauthorized(MsgInvalidCredentials)))
                && (u.status == Active && env.hasher.matches(u.password, req.password) ==>
                      r == Jwt.GenerateJWT(env.jwt, ToUserDto(u), env.now))
  {
    match Users.FindByEmail(s.users, req.email)
    case Err(e) => if !e.NotFound? then Err(Unauthorized(MsgInvalidCredentials)) else Err(e)
    case Ok(user) =>
      if user.status != Active then Err(Unauthorized(MsgEmailNotVerified))
      else if !env.hasher.matches(user.password, req.password) then Err(Unauthorized(MsgInvalidCredentials))
      else Jwt.GenerateJWT(env.jwt, user, env.now)
  }

  /** HandleSsoSignIn: the provider's authorisation URL for the fixed state. */
  function SsoSignIn(env: Env, providerName: string): (r: Result<string>)
    ensures providerName !in env.providers ==> r == Err(BadRequest(MsgUnsupportedProvider))
    ensures providerName in env.providers ==> r == Ok(env.providers[providerName].authCodeUrl(SsoState))
  {
    if providerName !in env.providers then Err(BadRequest(MsgUnsupportedProvider))
    else Ok(env.providers[providerName].authCodeUrl(SsoState))
  }

  /** The account a callback upserts: the provider's profile, marked active
      and tagged with the provider's name. */
  function SsoAccount(info: UserDto, providerName: string): UserDto {
    info.(provider := providerName, status := Active)
  }

  /** The profile a callback obtains: the code exchanged for an access token,
      then the provider's user info for it. */
  function SsoProfile(env: Env, providerName: string, code: string): Result<UserDto>
    requires providerName in env.providers
  {
    var p := env.providers[providerName];
    match p.exchange(code)
    case Err(e) => Err(e)
    case Ok(token) => p.fetchUserInfo(token)
  }

  /** The store half of a callback: upsert the account by its e-mail and sign a
      token for the account stored. */
  function UpsertAndSign(s: State, env: Env, d: UserDto, newId: string): (r: Step<State, string>)
    requires Valid(s)
    ensures Valid(r.state) && SameFaults(s, r.state)
    ensures r.state.tokens == s.tokens
    ensures s.users.accounts.Keys <= r.state.users.accounts.Keys
    ensures forall k :: k in s.users.accounts && s.users.accounts[k].email != d.email ==>
              k in r.state.users.accounts && r.state.users.accounts[k] == s.users.accounts[k]
    ensures QueryByEmail in s.users.faults ==> r == Step(s, Err(InternalServer(Users.MsgFetchByEmailFailed)))
    ensures forall k :: QueryByEmail !in s.users.faults && k in s.users.accounts && s.users.accounts[k].email == d.email ==>
              if QueryById !in s.users.faults && QuerySave !in s.users.faults then
                && r.state.users.accounts == s.users.accounts[k := Users.Merge(s.users.accounts[k], d)]
                && r.result == Jwt.GenerateJWT(env.jwt, ToUserDto(r.state.users.accounts[k]), env.now)
              else r == Step(s, Err(InternalServer(if QueryById in s.users.faults then Users.MsgFindFailed
                                                    else Users.MsgUpdateFailed)))
    ensures QueryByEmail !in s.users.faults && !HasEmail(s.users, d.email) ==>
              if QuerySave !in s.users.faults && newId !in s.users.accounts then
                && r.state.users.accounts == s.users.accounts[newId := Users.NewRow(Users.WithDefaultRole(d), newId)]
                && r.result == Jwt.GenerateJWT(env.jwt, ToUserDto(r.state.users.accounts[newId]), env.now)
              else r == Step(s, Err(InternalServer(Users.MsgSaveFailed)))
    ensures r.result.Ok? ==>
              && HasEmail(r.state.users, d.email)
              && forall k :: k in r.state.users.accounts && r.state.users.accounts[k].email == d.email ==>
                   && (d.status != StatusNone ==> r.state.users.accounts[k].status == d.status)
                   && (d.provider != "" ==> r.state.users.accounts[k].provider == d.provider)
  {
    var up := Users.UpsertUser(s.users, d, newId);
    match up.result
    case Err(e) => Step(s, Err(e))
    case Ok(user) =>
      assert forall k :: k in up.state.accounts && up.state.accounts[k].email == d.email ==> k == user.id;
      Step(State(up.state, s.tokens), Jwt.GenerateJWT(env.jwt, user, env.now))
  }

  /** HandleSSOCallback: exchange the code, fetch the profile, upsert it by
      e-mail as an active account of this provider, and sign a token for it. */
  function SsoCallback(s: State, env: Env, providerName: string, code: string, newId: string): (r: Step<State, string>)
    requires Valid(s)
    ensures Valid(r.state) && SameFaults(s, r.state)
    ensures TokensOwned(s) ==> TokensOwned(r.state)
    ensures r.state.tokens == s.tokens
    ensures providerName !in env.providers ==> r == Step(s, Err(BadRequest(MsgUnsupportedProvider)))
    ensures providerName in env.providers && env.providers[providerName].exchange(code).Err? ==>
              r == Step(s, Err(env.providers[providerName].exchange(code).error))
    // a failed exchange or profile fetch is passed on and changes nothing
    ensures providerName in env.providers && SsoProfile(env, providerName, code).Err? ==>
              r == Step(s, Err(SsoProfile(env, providerName, code).error))
    ensures providerName in env.providers && SsoProfile(env, providerName, code).Ok? ==>
              var info := SsoProfile(env, providerName, code).value;
              var d := SsoAccount(info, providerName);
              // accounts with another address are untouched
              && (forall k :: k in s.users.accounts && s.users.accounts[k].email != info.email ==>
                    k in r.state.users.accounts && r.state.users.accounts[k] == s.users.accounts[k])
              && (QueryByEmail in s.users.faults ==>
                    r == Step(s, Err(InternalServer(Users.MsgFetchByEmailFailed))))
              // a known address: that account takes the profile, and the token is signed for it
              && (forall k :: QueryByEmail !in s.users.faults && k in s.users.accounts
                              && s.users.accounts[k].email == info.email ==>
                    if QueryById !in s.users.faults && QuerySave !in s.users.faults then
                      && r.state.users.accounts == s.users.accounts[k := Users.Merge(s.users.accounts[k], d)]
                      && r.result == Jwt.GenerateJWT(env.jwt, ToUserDto(r.state.users.accounts[k]), env.now)
                    else r == Step(s, Err(InternalServer(if QueryById in s.users.faults then Users.MsgFindFailed
                                                          else Users.MsgUpdateFailed))))
              // a new address: an account is created under the fresh id
              && (QueryByEmail !in s.users.faults && !HasEmail(s.users, info.email) ==>
                    if QuerySave !in s.users.faults && newId !in s.users.accounts then
                      && r.state.users.accounts == s.users.accounts[newId := Users.NewRow(Users.WithDefaultRole(d), newId)]
                      && r.result == Jwt.GenerateJWT(env.jwt, ToUserDto(r.state.users.accounts[newId]), env.now)
                    else r == Step(s, Err(InternalServer(Users.MsgSaveFailed))))
    ensures r.result.Ok? ==>
              && providerName in env.providers
              && var p := env.providers[providerName];
              && p.exchange(code).Ok?
              && p.fetchUserInfo(p.exchange(code).value).Ok?
              && var info := p.fetchUserInfo(p.exchange(code).value).value;
              // one account carries the profile's address, and it is active
              && HasEmail(r.state.users, info.email)
              && (forall k :: k in r.state.users.accounts && r.state.users.accounts[k].email == info.email ==>
                    && r.state.users.accounts[k].status == Active
                    && (providerName != "" ==> r.state.users.accounts[k].provider == providerName))
              // no account is lost
              && s.users.accounts.Keys <= r.state.users.accounts.Keys
  {
    if providerName !in env.providers then Step(s, Err(BadRequest(MsgUnsupportedProvider)))
    else
      var p := env.providers[providerName];
      match p.exchange(code)
      case Err(e) => Step(s, Err(e))
      case Ok(token) =>
        match p.fetchUserInfo(token)
        case Err(e) => Step(s, Err(e))
        case Ok(info) => UpsertAndSign(s, env, SsoAccount(info, providerName), newId)
  }

  /** The checks both token flows make, in order: the token exists, it has the
      flow's purpose, and the clock is not past its expiry instant. */
  function CheckToken(s: State, env: Env, token: string, purpose: Tokens.Purpose, expiredMsg: string)
    : (r: Result<Tokens.TokenDto>)
    requires Valid(s)
    ensures Tokens.QueryByToken in s.tokens.faults ==> r == Err(InternalServer(Tokens.MsgFetchFailed))
    ensures Tokens.QueryByToken !in s.tokens.faults && token !in s.tokens.rows ==>
              r == Err(NotFound(Tokens.MsgTokenNotFound))
    ensures Tokens.QueryByToken !in s.tokens.faults && token in s.tokens.rows ==>
              var t := s.tokens.rows[token];
              // the purpose is checked first, whatever the expiry
              && (t.purpose != purpose ==> r == Err(BadRequest(MsgInvalidPurpose)))
              && (t.purpose == purpose && env.now > t.expiresAt ==> r == Err(BadRequest(expiredMsg)))
              // the expiry instant itself is still accepted
              && (t.purpose == purpose && env.now <= t.expiresAt ==> r.Ok?)
    ensures r.Ok? ==> token in s.tokens.rows && Tokens.ToVerificationTokenModel(r.value) == s.tokens.rows[token]
  {
    match Tokens.GetToken(s.tokens, token)
    case Err(e) => Err(e)
    case Ok(t) =>
      if t.purpose != purpose then Err(BadRequest(MsgInvalidPurpose))
      else if Tokens.Expired(t, env.now) then Err(BadRequest(expiredMsg))
      else Ok(t)
  }

  /** HandleEmailVerification: the owner becomes active and all of the owner's
      tokens are revoked. The outcome of the account update is not looked at,
      so a failed write still reports success. */
  function EmailVerification(s: State, env: Env, req: Validation.EmailVerificationRequest): (r: Step<State, ()>)
    requires Valid(s)
    ensures Valid(r.state) && SameFaults(s, r.state)
    ensures TokensOwned(s) ==> TokensOwned(r.state)
    ensures var c := CheckToken(s, env, req.token, Tokens.EmailVerification, MsgEmailTokenExpired);
            c.Err? ==> r == Step(s, Err(c.error))
    // an owner that cannot be loaded: the lookup's own error, and no change
    ensures var c := CheckToken(s, env, req.token, Tokens.EmailVerification, MsgEmailTokenExpired);
            c.Ok? && QueryById in s.users.faults ==>
              r == Step(s, Err(InternalServer(Users.MsgFetchByIdFailed)))
    ensures var c := CheckToken(s, env, req.token, Tokens.EmailVerification, MsgEmailTokenExpired);
            c.Ok? && QueryById !in s.users.faults && s.tokens.rows[req.token].userId !in s.users.accounts ==>
              r == Step(s, Err(NotFound(Users.MsgUserNotFound)))
    // an owner that loads is activated first (a refused write is ignored); the
    // revocation comes after, and its outage keeps the activation
    ensures var c := CheckToken(s, env, req.token, Tokens.EmailVerification, MsgEmailTokenExpired);
            c.Ok? && QueryById !in s.users.faults && s.tokens.rows[req.token].userId in s.users.accounts ==>
              var owner := s.tokens.rows[req.token].userId;
              && (QuerySave !in s.users.faults ==>
                    r.state.users.accounts == s.users.accounts[owner := s.users.accounts[owner].(status := Active)])
              && (QuerySave in s.users.faults ==> r.state.users == s.users)
              && (Tokens.QueryDeleteByUser in s.tokens.faults ==>
                    r.state.tokens == s.tokens && r.result == Err(InternalServer(Tokens.MsgDeleteFailed)))
    ensures r.result.Ok? <==>
              && CheckToken(s, env, req.token, Tokens.EmailVerification, MsgEmailTokenExpired).Ok?
              && QueryById !in s.users.faults
              && s.tokens.rows[req.token].userId in s.users.accounts
              && Tokens.QueryDeleteByUser !in s.tokens.faults
    ensures r.result.Ok? ==>
              var owner := s.tokens.rows[req.token].userId;
              && owner in s.users.accounts
              && (QuerySave !in s.users.faults ==>
                    r.state.users.accounts == s.users.accounts[owner := s.users.accounts[owner].(status := Active)])
              && (QuerySave in s.users.faults ==> r.state.users == s.users)
              // every token of the owner is gone, every other token is kept
              && (forall k :: k in r.state.tokens.rows ==> r.state.tokens.rows[k].userId != owner)
              && (forall k :: k in s.tokens.rows && s.tokens.rows[k].userId != owner ==>
                    k in r.state.tokens.rows && r.state.tokens.rows[k] == s.tokens.rows[k])
  {
    match CheckToken(s, env, req.token, Tokens.EmailVerification, MsgEmailTokenExpired)
    case Err(e) => Step(s, Err(e))
    case Ok(t) =>
      match Users.FindById(s.users, t.userId)
      case Err(e) => Step(s, Err(e))
      case Ok(user) =>
        var u := s.users.accounts[t.userId];
        UserDtoRoundTrip(user);
        Users.MergeOwnDtoWithStatus(u, Active);
        assert !EmailTakenByOther(s.users, t.userId, u.email);
        var updated := Users.UpdateUser(s.users, user.id, user.(status := Active));
        var deleted := Tokens.DeleteTokensForUser(s.tokens, t.userId);
        Step(State(updated.state, deleted.state), deleted.result)
  }

  /** HandlePasswordReset: the owner's password becomes the digest of the new
      one and all of the owner's tokens are revoked. An owner that cannot be
      loaded makes the call succeed without changing anything. */
  function PasswordReset(s: State, env: Env, req: Validation.PasswordResetRequest): (r: Step<State, ()>)
    requires Valid(s)
    ensures Valid(r.state) && SameFaults(s, r.state)
    ensures TokensOwned(s) ==> TokensOwned(r.state)
    ensures var c := CheckToken(s, env, req.token, Tokens.PasswordReset, MsgPasswordTokenExpired);
            c.Err? ==> r == Step(s, Err(c.error))
    ensures var c := CheckToken(s, env, req.token, Tokens.PasswordReset, MsgPasswordTokenExpired);
            c.Ok? && (QueryById in s.users.faults || s.tokens.rows[req.token].userId !in s.users.accounts) ==>
              r == Step(s, Ok(()))
    ensures r.result.Ok? <==>
              && CheckToken(s, env, req.token, Tokens.PasswordReset, MsgPasswordTokenExpired).Ok?
              && (|| QueryById in s.users.faults
                  || s.tokens.rows[req.token].userId !in s.users.accounts
                  || (&& env.hasher.hash(req.password).Ok?
                      && QuerySave !in s.users.faults
                      && Tokens.QueryDeleteByUser !in s.tokens.faults))
    // an owner that loads: the digest replaces the password (an empty digest
    // would leave it), then the owner's tokens are revoked; a failed revocation
    // keeps the new password
    ensures var c := CheckToken(s, env, req.token, Tokens.PasswordReset, MsgPasswordTokenExpired);
            c.Ok? && QueryById !in s.users.faults && s.tokens.rows[req.token].userId in s.users.accounts ==>
              var owner := s.tokens.rows[req.token].userId;
              var h := env.hasher.hash(req.password);
              && (h.Err? ==> r == Step(s, Err(h.error)))
              && (h.Ok? && QuerySave in s.users.faults ==> r == Step(s, Err(InternalServer(Users.MsgUpdateFailed))))
              && (h.Ok? && QuerySave !in s.users.faults ==>
                    && r.state.users.accounts
                       == s.users.accounts[owner := s.users.accounts[owner].(password := Users.Pick(h.value, s.users.accounts[owner].password))]
                    && (Tokens.QueryDeleteByUser in s.tokens.faults ==>
                          r.state.tokens == s.tokens && r.result == Err(InternalServer(Tokens.MsgDeleteFailed)))
                    && (Tokens.QueryDeleteByUser !in s.tokens.faults ==>
                          && (forall k :: k in r.state.tokens.rows ==> r.state.tokens.rows[k].userId != owner)
                          && (forall k :: k in s.tokens.rows && s.tokens.rows[k].userId != owner ==>
                                k in r.state.tokens.rows && r.state.tokens.rows[k] == s.tokens.rows[k])))
    // with bcrypt's guarantee the stored password is exactly the new digest
    ensures var c := CheckToken(s, env, req.token, Tokens.PasswordReset, MsgPasswordTokenExpired);
            Sound(env.hasher) && r.result.Ok? && c.Ok? && QueryById !in s.users.faults
            && s.tokens.rows[req.token].userId in s.users.accounts ==>
              var owner := s.tokens.rows[req.token].userId;
              r.state.users.accounts
              == s.users.accounts[owner := s.users.accounts[owner].(password := env.hasher.hash(req.password).value)]
  {
    match CheckToken(s, env, req.token, Tokens.PasswordReset, MsgPasswordTokenExpired)
    case Err(e) => Step(s, Err(e))
    case Ok(t) =>
      match Users.FindById(s.users, t.userId)
      case Err(_) => Step(s, Ok(()))
      case Ok(user) =>
        match env.hasher.hash(req.password)
        case Err(he) => Step(s, Err(he))
        case Ok(digest) =>
          var u := s.users.accounts[t.userId];
          UserDtoRoundTrip(user);
          assert !EmailTakenByOther(s.users, t.userId, u.email);
          assert digest != "" ==> Users.Merge(u, user.(password := digest)) == u.(password := digest);
          var updated := Users.UpdateUser(s.users, user.id, user.(password := digest));
          match updated.result
          case Err(ue) => Step(s, Err(ue))
          case Ok(_) =>
            var deleted := Tokens.DeleteTokensForUser(s.tokens, t.userId);
            Step(State(updated.state, deleted.state), deleted.result)
  }

  /** HandleSendPasswordResetToken: issue a password-reset token to the account
      with that address and mail it the reset link. An unknown address gives
      the lookup's NotFound error and issues nothing. */
  function SendPasswordResetToken(s: State, env: Env, req: Validation.VerificationTokenRequest,
                                  uuids: Tokens.Fresh): (r: Reply<()>)
    requires Valid(s)
    ensures Valid(r.state) && SameFaults(s, r.state)
    ensures TokensOwned(s) ==> TokensOwned(r.state)
    ensures r.state.users == s.users
    ensures QueryByEmail in s.users.faults ==>
              r == Reply(s, None, Err(InternalServer(Users.MsgFetchByEmailFailed)))
    ensures QueryByEmail !in s.users.faults && !HasEmail(s.users, req.email) ==>
              r == Reply(s, None, Err(NotFound(Users.MsgUserNotFound)))
    ensures r.mail.None? ==> r.state == s && r.result.Err?
    // a known address always gets a token and a mail unless the token cannot be stored
    ensures QueryByEmail !in s.users.faults && HasEmail(s.users, req.email) ==>
              && (r.mail.Some? <==>
                    Tokens.QuerySave !in s.tokens.faults && uuids.token !in s.tokens.rows
                    && !Tokens.IdInUse(s.tokens, uuids.id))
              && (r.mail.None? ==> r.result == Err(InternalServer(Tokens.MsgSaveFailed)))
    ensures r.mail.Some? ==>
              && uuids.token !in s.tokens.rows
              && uuids.token in r.state.tokens.rows
              && var owner := r.state.tokens.rows[uuids.token].userId;
              && owner in s.users.accounts && s.users.accounts[owner].email == req.email
              && r.state.tokens.rows
                 == s.tokens.rows[uuids.token := IssuedToken(env, owner, Tokens.PasswordReset, uuids)]
              && r.mail.value.to == req.email
              && r.mail.value.subject == ResetSubject
              && "password_reset_link" in r.mail.value.variables
              && r.mail.value.variables["password_reset_link"] == env.cfg.passwordResetUrl + uuids.token
              && r.result == env.mailer(r.mail.value)
  {
    match Users.FindByEmail(s.users, req.email)
    case Err(e) => Reply(s, None, Err(e))
    case Ok(user) =>
      var sent := SendTokenMail(s.tokens, env, user, Tokens.PasswordReset, uuids);
      Reply(State(s.users, sent.tokens), sent.mail, sent.result)
  }

  /** The whole password life cycle: after a sign-up, verifying the mailed
      token before it expires activates the new account, which can then sign in
      with its password; a token it is given validates to the new account. */
  lemma {:induction false} SignUpVerifySignIn(s: State, env: Env, req: Validation.SignUpRequest, ids: NewIds,
                                              verifiedAt: int, signedInAt: int)
    requires Valid(s) && TokensOwned(s)
    requires s.users.faults == {} && s.tokens.faults == {}
    requires Sound(env.hasher) && Jwt.Consistent(env.jwt.codec) && env.jwt.config.expirationHours >= 0
    requires SignUp(s, env, req, ids).result.Ok?
    requires verifiedAt <= env.now + env.cfg.tokenDurationMins * Tokens.SecondsPerMinute
    ensures var s1 := SignUp(s, env, req, ids).state;
            var v := EmailVerification(s1, env.(now := verifiedAt), Validation.EmailVerificationRequest(ids.token.token));
            && v.result.Ok?
            && ids.user in v.state.users.accounts
            && v.state.users.accounts[ids.user].status == Active
            && var r := SignIn(v.state, env.(now := signedInAt), Validation.SignInRequest(req.email, req.password));
            && r == Jwt.GenerateJWT(env.jwt, ToUserDto(v.state.users.accounts[ids.user]), signedInAt)
            && (r.Ok? ==> Jwt.Accepted(Jwt.ValidateToken(env.jwt, r.value, signedInAt))
                          && Jwt.ValidateToken(env.jwt, r.value, signedInAt).result.value.id == ids.user)
  {
    var s1 := SignUp(s, env, req, ids).state;
    var env1 := env.(now := verifiedAt);
    var t := s1.tokens.rows[ids.token.token];
    assert t.userId == ids.user && t.purpose == Tokens.EmailVerification;
    assert CheckToken(s1, env1, ids.token.token, Tokens.EmailVerification, MsgEmailTokenExpired).Ok?;
    var v := EmailVerification(s1, env1, Validation.EmailVerificationRequest(ids.token.token));
    var u := v.state.users.accounts[ids.user];
    assert u == s1.users.accounts[ids.user].(status := Active);
    assert env.hasher.matches(u.password, req.password);
    var env2 := env.(now := signedInAt);
    var r := SignIn(v.state, env2, Validation.SignInRequest(req.email, req.password));
    assert r == Jwt.GenerateJWT(env.jwt, ToUserDto(u), signedInAt);
    if r.Ok? {
      Jwt.IssuedTokenValidates(env.jwt, ToUserDto(u), signedInAt, signedInAt);
    }
  }

  /** The reset life cycle: the token mailed for an address, used before it
      expires, sets the owner's password to the new one's digest and is gone
      afterwards; an active owner then signs in with the new password. */
  lemma {:induction false} ResetThenSignIn(s: State, env: Env, req: Validation.VerificationTokenRequest,
                                           uuids: Tokens.Fresh, password: string, resetAt: int, signedInAt: int)
    requires Valid(s) && TokensOwned(s)
    requires s.users.faults == {} && s.tokens.faults == {}
    requires Sound(env.hasher) && env.hasher.hash(password).Ok?
    requires SendPasswordResetToken(s, env, req, uuids).mail.Some?
    requires resetAt <= env.now + env.cfg.tokenDurationMins * Tokens.SecondsPerMinute
    ensures var s1 := SendPasswordResetToken(s, env, req, uuids).state;
            var owner := s1.tokens.rows[uuids.token].userId;
            var rr := PasswordReset(s1, env.(now := resetAt), Validation.PasswordResetRequest(uuids.token, password));
            && rr.result.Ok?
            && owner in rr.state.users.accounts
            && rr.state.users.accounts[owner] == s.users.accounts[owner].(password := env.hasher.hash(password).value)
            && CheckToken(rr.state, env.(now := resetAt), uuids.token, Tokens.PasswordReset, MsgPasswordTokenExpired)
               == Err(NotFound(Tokens.MsgTokenNotFound))
            && (s.users.accounts[owner].status == Active ==>
                  SignIn(rr.state, env.(now := signedInAt), Validation.SignInRequest(req.email, password))
                  == Jwt.GenerateJWT(env.jwt, ToUserDto(rr.state.users.accounts[owner]), signedInAt))
  {
    var s1 := SendPasswordResetToken(s, env, req, uuids).state;
    var env1 := env.(now := resetAt);
    var t := s1.tokens.rows[uuids.token];
    var owner := t.userId;
    assert t.purpose == Tokens.PasswordReset;
    assert CheckToken(s1, env1, uuids.token, Tokens.PasswordReset, MsgPasswordTokenExpired).Ok?;
    var rr := PasswordReset(s1, env1, Validation.PasswordResetRequest(uuids.token, password));
    var u := rr.state.users.accounts[owner];
    assert u == s.users.accounts[owner].(password := env.hasher.hash(password).value);
    assert rr.state.tokens.rows.Keys <= s1.tokens.rows.Keys;
    assert uuids.token !in rr.state.tokens.rows;
    assert u.email == req.email;
    assert env.hasher.matches(u.password, password);
  }

  /** A profile signed in twice keeps one account: the second callback finds the
      account the first one upserted and adds none. */
  lemma {:induction false} SsoCallbackTwiceKeepsAccount(s: State, env: Env, providerName: string,
                                                        code1: string, code2: string, id1: string, id2: string)
    requires Valid(s) && s.users.faults == {}
    requires providerName in env.providers
    requires SsoProfile(env, providerName, code1).Ok? && SsoProfile(env, providerName, code2).Ok?
    requires SsoProfile(env, providerName, code1).value.email == SsoProfile(env, providerName, code2).value.email
    requires id1 !in s.users.accounts
    ensures var r1 := SsoCallback(s, env, providerName, code1, id1);
            var r2 := SsoCallback(r1.state, env, providerName, code2, id2);
            var e := SsoProfile(env, providerName, code1).value.email;
            && HasEmail(r1.state.users, e)
            && r2.state.users.accounts.Keys == r1.state.users.accounts.Keys
            && (forall k :: k in r1.state.users.accounts && r1.state.users.accounts[k].email == e ==>
                  && r2.state.users.accounts[k].email == e
                  && r2.result == Jwt.GenerateJWT(env.jwt, ToUserDto(r2.state.users.accounts[k]), env.now))
  {
    var e := SsoProfile(env, providerName, code1).value.email;
    var d := SsoAccount(SsoProfile(env, providerName, code1).value, providerName);
    var r1 := SsoCallback(s, env, providerName, code1, id1);
    if HasEmail(s.users, e) {
      var k :| k in s.users.accounts && s.users.accounts[k].email == e;
      assert r1.state.users.accounts[k] == Users.Merge(s.users.accounts[k], d);
      assert r1.state.users.accounts[k].email == e;
    } else {
      assert r1.state.users.accounts[id1].email == e;
    }
  }

  /** The token a callback returns validates, until it expires, to the account
      that now holds the profile's address. */
  lemma {:induction false} SsoCallbackTokenValidates(s: State, env: Env, providerName: string, code: string,
                                                     newId: string, now: int)
    requires Valid(s)
    requires Jwt.Consistent(env.jwt.codec)
    requires now <= env.now + env.jwt.config.expirationHours * Jwt.SecondsPerHour
    requires SsoCallback(s, env, providerName, code, newId).result.Ok?
    ensures var r := SsoCallback(s, env, providerName, code, newId);
            var v := Jwt.ValidateToken(env.jwt, r.result.value, now);
            && Jwt.Accepted(v)
            && v.result.value.id in r.state.users.accounts
            && r.state.users.accounts[v.result.value.id].email == SsoProfile(env, providerName, code).value.email
  {
    var r := SsoCallback(s, env, providerName, code, newId);
    var info := SsoProfile(env, providerName, code).value;
    var k :| k in r.state.users.accounts && r.state.users.accounts[k].email == info.email;
    var u := ToUserDto(r.state.users.accounts[k]);
    assert r.result == Jwt.GenerateJWT(env.jwt, u, env.now);
    Jwt.IssuedTokenValidates(env.jwt, u, env.now, now);
  }

  /** The sign-in redirect and the callback accept the same providers. */
  lemma SsoSignInAndCallbackAgree(s: State, env: Env, providerName: string, code: string, newId: string)
    requires Valid(s)
    ensures SsoSignIn(env, providerName).Err? <==> providerName !in env.providers
    ensures SsoSignIn(env, providerName).Err? ==>
              SsoCallback(s, env, providerName, code, newId) == Step(s, SsoSignIn(env, providerName))
  {
  }
}

=== FILE: bearer.dfy ===
/** The Authorization-header handling both request gates share
    (internal/auth/auth_middleware.go, internal/router/middleware/auth.go). A
    header is a string of bytes, one `char` per byte. */
module Bearer {
  import opened ServiceErrors

  const Prefix := "Bearer "

  predicate OccursAt(header: string, i: int) {
    0 <= i <= |header| - |Prefix| && header[i..i + |Prefix|] == Prefix
  }

  /** `strings.Contains(header, "Bearer ")`: the prefix occurs anywhere. */
  predicate HasBearer(header: string) {
    exists i | 0 <= i <= |header| - |Prefix| :: OccursAt(header, i)
  }

  /** The token a gate validates: None for a missing header or one without the
      prefix; otherwise the header minus its first seven bytes, wherever the
      prefix actually occurs. */
  function ExtractToken(header: string): (r: Option<string>)
    ensures r.None? <==> header == "" || !HasBearer(header)
    ensures r.Some? ==> |header| >= |Prefix| && header == header[..|Prefix|] + r.value
  {
    if header == "" || !HasBearer(header) then None
    else Some(header[|Prefix|..])
  }

  /** A well-formed header gives back exactly the token it carries. */
  lemma {:induction false} ExtractTokenOfBearer(token: string)
    ensures ExtractToken(Prefix + token) == Some(token)
  {
    var h := Prefix + token;
    assert OccursAt(h, 0);
    assert h[|Prefix|..] == token;
  }

  /** The presence test and the cut disagree when the prefix is not at the
      start: here the gate goes on to validate "earer abc". */
  lemma {:induction false} ExtractTokenAtFixedOffset()
    ensures ExtractToken("Token Bearer abc") == Some("earer abc")
  {
    var h := "Token Bearer abc";
    assert OccursAt(h, 6);
  }
}

=== FILE: errors.dfy ===
/** The service's error taxonomy (internal/error/errors.go) and the mapping of an
    error to an HTTP response (internal/error/error_handler.go). */
module ServiceErrors {

  datatype Option<+T> = None | Some(value: T)

  /** The five typed errors of the service, each carrying its message, plus every
      other Go `error` value (bcrypt, jwt-go and the like), which the handler does
      not recognise. */
  datatype ServiceError =
    | NotFound(message: string)
    | BadRequest(message: string)
    | Unauthorized(message: string)
    | InternalServer(message: string)
    | BadGateway(message: string)
    | Other(message: string)

  /** Go's `(value, error)` pair: exactly one side is meaningful. */
  datatype Result<+T> = Ok(value: T) | Err(error: ServiceError)

  /** An operation on a store: the store afterwards and what the caller sees. */
  datatype Step<+S, +T> = Step(state: S, result: Result<T>)

  /** An HTTP reply: a status code and, when present, the text of the
      `{"error": text}` body. */
  datatype Response = Response(status: int, errorBody: Option<string>)

  const StatusBadRequest := 400
  const StatusUnauthorized := 401
  const StatusForbidden := 403
  const StatusNotFound := 404
  const StatusInternalServerError := 500
  const StatusBadGateway := 502

  /** The text `Error()` returns: every typed error returns its `Message`. */
  function ErrorText(e: ServiceError): string {
    e.message
  }

  predicate IsTyped(e: ServiceError) {
    !e.Other?
  }

  /** HandleError: a type switch over the five typed errors; anything else is a
      bare 500 without a body. */
  function HandleError(e: ServiceError): (r: Response)
    ensures IsTyped(e) <==> r.errorBody.Some?
    ensures r.errorBody.Some? ==> r.errorBody.value == e.message
    ensures r.status == StatusNotFound <==> e.NotFound?
    ensures r.status == StatusBadRequest <==> e.BadRequest?
    ensures r.status == StatusUnauthorized <==> e.Unauthorized?
    ensures r.status == StatusBadGateway <==> e.BadGateway?
    ensures r.status == StatusInternalServerError <==> (e.InternalServer? || e.Other?)
  {
    match e
    case NotFound(m) => Response(StatusNotFound, Some(ErrorText(e)))
    case BadRequest(m) => Response(StatusBadRequest, Some(ErrorText(e)))
    case Unauthorized(m) => Response(StatusUnauthorized, Some(ErrorText(e)))
    case InternalServer(m) => Response(StatusInternalServerError, Some(ErrorText(e)))
    case BadGateway(m) => Response(StatusBadGateway, Some(ErrorText(e)))
    case Other(m) => Response(StatusInternalServerError, None)
  }

  /** The handler loses nothing about a typed error: its kind and message can be
      read back from the response. */
  function KindFromResponse(r: Response): Option<ServiceError> {
    match r.errorBody
    case None => None
    case Some(m) =>
      if r.status == StatusNotFound then Some(NotFound(m))
      else if r.status == StatusBadRequest then Some(BadRequest(m))
      else if r.status == StatusUnauthorized then Some(Unauthorized(m))
      else if r.status == StatusInternalServerError then Some(InternalServer(m))
      else if r.status == StatusBadGateway then Some(BadGateway(m))
      else None
  }

  lemma HandleErrorInvertible(e: ServiceError)
    ensures IsTyped(e) ==> KindFromResponse(HandleError(e)) == Some(e)
    ensures !IsTyped(e) ==> KindFromResponse(HandleError(e)) == None
  {
  }

  /** Two typed errors that the handler answers identically are the same error. */
  lemma HandleErrorInjective(e1: ServiceError, e2: ServiceError)
    requires IsTyped(e1) && IsTyped(e2)
    requires HandleError(e1) == HandleError(e2)
    ensures e1 == e2
  {
    HandleErrorInvertible(e1);
    HandleErrorInvertible(e2);
  }
}

=== FILE: history.dfy ===
/** The synthesis history (internal/history/): records and their transfer
    object, the history table as a sequence in the order a user's listing
    returns it (newest first, by creation time), and the history service with
    its page arithmetic. Queries named in `faults` fail. */
module History {
  import opened ServiceErrors
  import opened UserTypes

  datatype HistoryRecord = HistoryRecord(id: string, userId: string, text: string, language: string, createdAt: int)
  datatype HistoryRecordDto = HistoryRecordDto(id: string, userId: string, text: string, language: string, createdAt: int)

  function ToHistoryRecordModel(d: HistoryRecordDto): (m: HistoryRecord)
    ensures m.id == d.id && m.userId == d.userId && m.text == d.text && m.language == d.language
    ensures m.createdAt == d.createdAt
  {
    HistoryRecord(d.id, d.userId, d.text, d.language, d.createdAt)
  }

  function ToHistoryRecordDto(m: HistoryRecord): (d: HistoryRecordDto)
    ensures d.id == m.id && d.userId == m.userId && d.text == m.text && d.language == m.language
    ensures d.createdAt == m.createdAt
  {
    HistoryRecordDto(m.id, m.userId, m.text, m.language, m.createdAt)
  }

  lemma HistoryDtoRoundTrip(d: HistoryRecordDto)
    ensures ToHistoryRecordDto(ToHistoryRecordModel(d)) == d
  {
  }

  lemma HistoryModelRoundTrip(m: HistoryRecord)
    ensures ToHistoryRecordModel(ToHistoryRecordDto(m)) == m
  {
  }

  /** Go's zero `time.Time` (0001-01-01T00:00:00Z) in Unix seconds: the value
      the database replaces by the current time on insert. */
  const ZeroTime := -62135596800

  datatype HistoryQuery = QuerySave | QueryFindByUser | QueryCountByUser | QueryDeleteByUser | QueryDeleteById

  datatype Archive = Archive(records: seq<HistoryRecord>, faults: set<HistoryQuery>)

  predicate NewestFirst(rs: seq<HistoryRecord>) {
    forall i, j :: 0 <= i < j < |rs| ==> rs[i].createdAt >= rs[j].createdAt
  }

  predicate UniqueIds(rs: seq<HistoryRecord>) {
    forall i, j :: 0 <= i < j < |rs| ==> rs[i].id != rs[j].id
  }

  predicate Valid(a: Archive) {
    NewestFirst(a.records) && UniqueIds(a.records)
  }

  predicate HasId(rs: seq<HistoryRecord>, id: string) {
    exists i :: 0 <= i < |rs| && rs[i].id == id
  }

  /** Consing a record no older than the rest keeps the listing order. */
  lemma {:induction false} ConsNewestFirst(h: HistoryRecord, rest: seq<HistoryRecord>)
    requires NewestFirst(rest)
    requires forall x :: x in rest ==> x.createdAt <= h.createdAt
    ensures NewestFirst([h] + rest)
  {
    var out := [h] + rest;
    forall i, j | 0 <= i < j < |out|
      ensures out[i].createdAt >= out[j].createdAt
    {
      assert out[j] == rest[j - 1];
      if i > 0 {
        assert out[i] == rest[i - 1];
      } else {
        assert rest[j - 1] in rest;
      }
    }
  }

  /** Consing a record whose id the rest does not hold keeps ids unique. */
  lemma {:induction false} ConsUniqueIds(h: HistoryRecord, rest: seq<HistoryRecord>)
    requires UniqueIds(rest)
    requires forall x :: x in rest ==> x.id != h.id
    ensures UniqueIds([h] + rest)
  {
    var out := [h] + rest;
    forall i, j | 0 <= i < j < |out|
      ensures out[i].id != out[j].id
    {
      assert out[j] == rest[j - 1];
      if i > 0 {
        assert out[i] == rest[i - 1];
      } else {
        assert rest[j - 1] in rest;
      }
    }
  }

  /** The head of a listing is its newest record, and its id is nowhere else. */
  lemma {:induction false} HeadOfListing(rs: seq<HistoryRecord>)
    requires |rs| > 0
    ensures NewestFirst(rs) ==> forall x :: x in rs[1..] ==> x.createdAt <= rs[0].createdAt
    ensures UniqueIds(rs) ==> forall x :: x in rs[1..] ==> x.id != rs[0].id
    ensures NewestFirst(rs) ==> NewestFirst(rs[1..])
    ensures UniqueIds(rs) ==> UniqueIds(rs[1..])
  {
    forall x | x in rs[1..]
      ensures exists k :: 1 <= k < |rs| && rs[k] == x
    {
      var k :| 0 <= k < |rs[1..]| && rs[1..][k] == x;
      assert rs[k + 1] == x;
    }
  }

  /** The records `keep` admits, in their order. */
  function Filter(rs: seq<HistoryRecord>, keep: HistoryRecord -> bool): (out: seq<HistoryRecord>)
    ensures forall x :: x in out ==> x in rs && keep(x)
    ensures forall x :: x in rs && keep(x) ==> x in out
  {
    if |rs| == 0 then []
    else if keep(rs[0]) then [rs[0]] + Filter(rs[1..], keep)
    else Filter(rs[1..], keep)
  }

  /** Filtering a listing leaves it a listing. */
  lemma {:induction false} FilterKeepsValid(rs: seq<HistoryRecord>, keep: HistoryRecord -> bool)
    requires NewestFirst(rs) && UniqueIds(rs)
    ensures NewestFirst(Filter(rs, keep)) && UniqueIds(Filter(rs, keep))
  {
    if |rs| > 0 {
      HeadOfListing(rs);
      FilterKeepsValid(rs[1..], keep);
      if keep(rs[0]) {
        var rest := Filter(rs[1..], keep);
        ConsNewestFirst(rs[0], rest);
        ConsUniqueIds(rs[0], rest);
      }
    }
  }

  /** A record placed in the listing order: after every newer record. */
  function Place(rs: seq<HistoryRecord>, r: HistoryRecord): (out: seq<HistoryRecord>)
    ensures |out| == |rs| + 1
    ensures multiset(out) == multiset(rs) + multiset{r}
    ensures forall x :: x in out <==> x in rs || x == r
  {
    if |rs| == 0 || r.createdAt >= rs[0].createdAt then [r] + rs
    else
      assert rs == [rs[0]] + rs[1..];
      [rs[0]] + Place(rs[1..], r)
  }

  /** Placing a record with a fresh id in a listing leaves it a listing. */
  lemma {:induction false} PlaceKeepsValid(rs: seq<HistoryRecord>, r: HistoryRecord)
    requires NewestFirst(rs) && UniqueIds(rs)
    requires forall x :: x in rs ==> x.id != r.id
    ensures NewestFirst(Place(rs, r)) && UniqueIds(Place(rs, r))
  {
    if |rs| == 0 || r.createdAt >= rs[0].createdAt {
      HeadOfListing2(rs, r);
    } else {
      HeadOfListing(rs);
      assert forall x :: x in rs[1..] ==> x in rs;
      PlaceKeepsValid(rs[1..], r);
      var rest := Place(rs[1..], r);
      assert forall x :: x in rest ==> x in multiset(rs[1..]) + multiset{r};
      ConsNewestFirst(rs[0], rest);
      ConsUniqueIds(rs[0], rest);
    }
  }

  /** A record no older than a listing's head can go in front of it. */
  lemma {:induction false} HeadOfListing2(rs: seq<HistoryRecord>, r: HistoryRecord)
    requires NewestFirst(rs) && UniqueIds(rs)
    requires forall x :: x in rs ==> x.id != r.id
    requires |rs| == 0 || r.createdAt >= rs[0].createdAt
    ensures NewestFirst([r] + rs) && UniqueIds([r] + rs)
  {
    if |rs| > 0 {
      HeadOfListing(rs);
      assert forall x :: x in rs ==> x == rs[0] || x in rs[1..];
    }
    ConsNewestFirst(r, rs);
    ConsUniqueIds(r, rs);
  }

  /** The records of one user, newest first. */
  function Owned(rs: seq<HistoryRecord>, userId: string): (out: seq<HistoryRecord>)
    ensures forall x :: x in out ==> x.userId == userId && x in rs
    ensures forall x :: x in rs && x.userId == userId ==> x in out
  {
    Filter(rs, (x: HistoryRecord) => x.userId == userId)
  }

  const MsgSaveFailed := "Failed to save history record"
  const MsgFetchFailed := "Failed to fetch history records"
  const MsgDeleteHistoryFailed := "Failed to delete history"
  const MsgDeleteRecordFailed := "Failed to delete history record"

  /** SaveHistoryRecord. A record whose id is already stored replaces that row;
      any other is inserted under the id `BeforeCreate` draws, stamped with the
      current time when its creation time is unset. */
  function SaveHistoryRecord(a: Archive, d: HistoryRecordDto, newId: string, now: int)
    : (r: Step<Archive, HistoryRecordDto>)
    requires Valid(a)
    ensures Valid(r.state) && r.state.faults == a.faults
    ensures QuerySave in a.faults ==> r == Step(a, Err(InternalServer(MsgSaveFailed)))
    // every refusal, the outage or a drawn id that is already stored, changes nothing
    ensures r.result.Err? ==> r == Step(a, Err(InternalServer(MsgSaveFailed)))
    ensures QuerySave !in a.faults && d.id != "" && HasId(a.records, d.id) ==>
              && r.result == Ok(d)
              && ToHistoryRecordModel(d) in r.state.records
              && (forall x :: x in r.state.records ==> x == ToHistoryRecordModel(d) || (x in a.records && x.id != d.id))
              && (forall x :: x in a.records && x.id != d.id ==> x in r.state.records)
    ensures r.result.Ok? <==> QuerySave !in a.faults && ((d.id != "" && HasId(a.records, d.id)) || !HasId(a.records, newId))
    ensures r.result.Ok? && !(d.id != "" && HasId(a.records, d.id)) ==>
              && r.result.value.id == newId
              && r.result.value.userId == d.userId && r.result.value.text == d.text
              && r.result.value.language == d.language
              && r.result.value.createdAt == (if d.createdAt == ZeroTime then now else d.createdAt)
              && |r.state.records| == |a.records| + 1
              && multiset(r.state.records) == multiset(a.records) + multiset{ToHistoryRecordModel(r.result.value)}
  {
    if QuerySave in a.faults then Step(a, Err(InternalServer(MsgSaveFailed)))
    else if d.id != "" && HasId(a.records, d.id) then
      var keep := (x: HistoryRecord) => x.id != d.id;
      var rest := Filter(a.records, keep);
      var m := ToHistoryRecordModel(d);
      FilterKeepsValid(a.records, keep);
      PlaceKeepsValid(rest, m);
      Step(a.(records := Place(rest, m)), Ok(d))
    else if HasId(a.records, newId) then Step(a, Err(InternalServer(MsgSaveFailed)))
    else
      var m := HistoryRecord(newId, d.userId, d.text, d.language,
                             if d.createdAt == ZeroTime then now else d.createdAt);
      assert forall x :: x in a.records ==> x.id != m.id;
      PlaceKeepsValid(a.records, m);
      Step(a.(records := Place(a.records, m)), Ok(ToHistoryRecordDto(m)))
  }

  /** The total number of pages: the count divided by the page size, rounded up. */
  function TotalPages(total: nat, limit: int): (p: nat)
    requires limit >= 1
  {
    total / limit + (if total % limit != 0 then 1 else 0)
  }

  /** TotalPages is the ceiling: the pages hold every record, and the last page
      is not empty. */
  lemma {:induction false} TotalPagesIsCeiling(total: nat, limit: int)
    requires limit >= 1
    ensures TotalPages(total, limit) * limit >= total
    ensures total > 0 ==> (TotalPages(total, limit) - 1) * limit < total
    ensures total == 0 <==> TotalPages(total, limit) == 0
  {
    var q := total / limit;
    var m := total % limit;
    assert total == q * limit + m;
    if m != 0 {
      assert TotalPages(total, limit) * limit == q * limit + limit;
    }
    if total > 0 && m == 0 {
      assert q >= 1;
      assert (q - 1) * limit == q * limit - limit;
    }
  }

  /** There is a next page exactly when records remain after this one. */
  lemma {:induction false} HasMoreMeansRecordsRemain(total: nat, page: int, limit: int)
    requires page >= 1 && limit >= 1
    ensures page < TotalPages(total, limit) <==> page * limit < total
  {
    TotalPagesIsCeiling(total, limit);
    var p := TotalPages(total, limit);
    if page < p {
      assert page * limit <= (p - 1) * limit;
    }
  }

  datatype PaginatedHistory = PaginatedHistory(
    records: seq<HistoryRecordDto>, totalRecords: int, totalPages: int, currentPage: int, hasMore: bool)

  /** `Offset(offset).Limit(limit)` on a listing. */
  function Window(rs: seq<HistoryRecord>, offset: nat, limit: nat): (w: seq<HistoryRecord>)
    ensures |w| == if offset >= |rs| then 0 else if offset + limit <= |rs| then limit else |rs| - offset
    ensures forall i :: 0 <= i < |w| ==> w[i] == rs[offset + i]
  {
    if offset >= |rs| then [] else rs[offset..if offset + limit <= |rs| then offset + limit else |rs|]
  }

  /** The loop that converts a page of rows into transfer objects, one for one
      and in order. */
  method ToDtos(records: seq<HistoryRecord>) returns (dtos: seq<HistoryRecordDto>)
    ensures |dtos| == |records|
    ensures forall j :: 0 <= j < |dtos| ==> ToHistoryRecordModel(dtos[j]) == records[j]
  {
    dtos := [];
    var i := 0;
    while i < |records|
      invariant 0 <= i <= |records|
      invariant |dtos| == i
      invariant forall j :: 0 <= j < i ==> ToHistoryRecordModel(dtos[j]) == records[j]
    {
      dtos := dtos + [ToHistoryRecordDto(records[i])];
      i := i + 1;
    }
  }

  /** GetHistoryRecordsByUserId, for the page and page size the controller has
      already clamped to at least 1. A failing count is passed on as the raw
      database error, not as a typed one. */
  method GetHistoryRecordsByUserId(a: Archive, user: UserDto, page: int, limit: int) returns (r: Result<PaginatedHistory>)
    requires Valid(a)
    requires page >= 1 && limit >= 1
    ensures QueryFindByUser in a.faults ==> r == Err(InternalServer(MsgFetchFailed))
    ensures QueryFindByUser !in a.faults && QueryCountByUser in a.faults ==> r.Err? && !IsTyped(r.error)
    ensures r.Ok? <==> QueryFindByUser !in a.faults && QueryCountByUser !in a.faults
    ensures r.Ok? ==>
              var owned := Owned(a.records, user.id);
              var offset := (page - 1) * limit;
              && r.value.totalRecords == |owned|
              && r.value.currentPage == page
              && r.value.totalPages * limit >= |owned|
              && (r.value.totalPages - 1) * limit < |owned|
              && (r.value.hasMore <==> offset + limit < |owned|)
              && |r.value.records| <= limit
              && (forall i :: 0 <= i < |r.value.records| ==>
                    offset + i < |owned| && ToHistoryRecordModel(r.value.records[i]) == owned[offset + i])
              && (offset < |owned| ==> |r.value.records| == (if offset + limit <= |owned| then limit else |owned| - offset))
              && (forall x :: x in r.value.records ==> x.userId == user.id)
  {
    var offset := (page - 1) * limit;
    if QueryFindByUser in a.faults {
      return Err(InternalServer(MsgFetchFailed));
    }
    var owned := Owned(a.records, user.id);
    var records := Window(owned, offset, limit);
    if QueryCountByUser in a.faults {
      return Err(Other(""));
    }
    var total := |owned|;
    var totalPages := TotalPages(total, limit);
    TotalPagesIsCeiling(total, limit);
    HasMoreMeansRecordsRemain(total, page, limit);
    assert page * limit == offset + limit;
    var dtos := ToDtos(records);
    assert forall j :: 0 <= j < |dtos| ==> dtos[j].userId == records[j].userId == user.id;
    assert forall x :: x in dtos ==> exists j :: 0 <= j < |dtos| && dtos[j] == x;
    r := Ok(PaginatedHistory(dtos, total, totalPages, page, page < totalPages));
  }

  /** DeleteHistory: every record of the user goes, every other one stays. */
  function DeleteHistory(a: Archive, userId: string): (r: Step<Archive, ()>)
    requires Valid(a)
    ensures Valid(r.state) && r.state.faults == a.faults
    ensures QueryDeleteByUser in a.faults ==> r == Step(a, Err(InternalServer(MsgDeleteHistoryFailed)))
    ensures QueryDeleteByUser !in a.faults ==> r.result.Ok?
    ensures r.result.Ok? ==>
              && (forall x :: x in r.state.records ==> x.userId != userId && x in a.records)
              && (forall x :: x in a.records && x.userId != userId ==> x in r.state.records)
  {
    if QueryDeleteByUser in a.faults then Step(a, Err(InternalServer(MsgDeleteHistoryFailed)))
    else
      var keep := (x: HistoryRecord) => x.userId != userId;
      var rest := Filter(a.records, keep);
      FilterKeepsValid(a.records, keep);
      Step(a.(records := rest), Ok(()))
  }

  /** DeleteHistoryRecordById: only a record with that id that belongs to that
      user goes; a record with that id that belongs to someone else stays. */
  function DeleteHistoryRecordById(a: Archive, id: string, userId: string): (r: Step<Archive, ()>)
    requires Valid(a)
    ensures Valid(r.state) && r.state.faults == a.faults
    ensures QueryDeleteById in a.faults ==> r == Step(a, Err(InternalServer(MsgDeleteRecordFailed)))
    ensures QueryDeleteById !in a.faults ==> r.result.Ok?
    ensures r.result.Ok? ==>
              && (forall x :: x in r.state.records ==> x in a.records && !(x.id == id && x.userId == userId))
              && (forall x :: x in a.records && (x.id != id || x.userId != userId) ==> x in r.state.records)
  {
    if QueryDeleteById in a.faults then Step(a, Err(InternalServer(MsgDeleteRecordFailed)))
    else
      var keep := (x: HistoryRecord) => !(x.id == id && x.userId == userId);
      FilterKeepsValid(a.records, keep);
      Step(a.(records := Filter(a.records, keep)), Ok(()))
  }
}

=== FILE: jwt.dfy ===
/** Bearer tokens (internal/auth/jwt/jwt_service.go, user_claims.go). Signing and
    parsing belong to the JWT library and are an input here: a `Codec` pairs the
    HS256 signer with the parser. Times are Unix seconds. */
module Jwt {
  import opened ServiceErrors
  import opened UserTypes

  const SecondsPerHour := 3600

  /** APP_NAME, JWT_SECRET_KEY and JWT_EXPIRATION_HOURS, read at start-up. */
  datatype JwtConfig = JwtConfig(application: string, secretKey: string, expirationHours: int)

  /** UserClaims: the account id next to the registered claims. A time claim
      that is absent from the token reads as zero. */
  datatype Claims = Claims(id: string, issuer: string, subject: string, expiresAt: int,
                           issuedAt: int, notBefore: int)

  datatype SigningMethod = HS256 | HS384 | HS512 | RS256 | ES256 | PS256 | Unsigned

  predicate IsHmac(m: SigningMethod) {
    m == HS256 || m == HS384 || m == HS512
  }

  /** A parsed token: the method its header names, its claims, and the key
      under which its signature checks out. */
  datatype Decoded = Decoded(alg: SigningMethod, claims: Claims, key: string)

  /** `sign(claims, key)` is the HS256 compact token (None when signing fails);
      `decode(token)` parses one (None when it is malformed). */
  datatype Codec = Codec(sign: (Claims, string) -> Option<string>, decode: string -> Option<Decoded>)

  /** A compact token splits at its dots into exactly three segments (header,
      claims, signature): it holds exactly two dots. */
  predicate ThreeSegments(token: string) {
    exists i, j :: 0 <= i < j < |token| && token[i] == '.' && token[j] == '.'
                   && forall k :: 0 <= k < |token| && token[k] == '.' ==> k == i || k == j
  }

  /** The library parses back what it signed, and what it signs is compact. */
  ghost predicate Consistent(codec: Codec) {
    forall c, k :: codec.sign(c, k).Some? ==>
      && ThreeSegments(codec.sign(c, k).value)
      && codec.decode(codec.sign(c, k).value) == Some(Decoded(HS256, c, k))
  }

  /** The JWT service: its configuration and the library it signs with. */
  datatype JwtService = JwtService(config: JwtConfig, codec: Codec)

  /** The claims the service issues: no issued-at and no not-before claim. */
  function CreateUserClaims(cfg: JwtConfig, user: UserDto, now: int): (c: Claims)
    ensures c.id == user.id && c.subject == user.id
    ensures c.issuer == cfg.application
    ensures c.expiresAt == now + cfg.expirationHours * SecondsPerHour
    ensures c.issuedAt == 0 && c.notBefore == 0
  {
    Claims(user.id, cfg.application, user.id, now + cfg.expirationHours * SecondsPerHour, 0, 0)
  }

  /** A signing failure is an InternalServer error with an empty message. */
  function GenerateJWT(svc: JwtService, user: UserDto, now: int): (r: Result<string>)
    ensures var signed := svc.codec.sign(CreateUserClaims(svc.config, user, now), svc.config.secretKey);
            && (r.Ok? <==> signed.Some?)
            && (r.Ok? ==> r.value == signed.value)
            && (r.Err? ==> r.error == InternalServer(""))
  {
    match svc.codec.sign(CreateUserClaims(svc.config, user, now), svc.config.secretKey)
    case None => Err(InternalServer(""))
    case Some(t) => Ok(t)
  }

  /** The registered-claims checks of the library (StandardClaims.Valid); each
      is skipped when its claim is absent. */
  predicate ClaimsExpired(c: Claims, now: int) {
    c.expiresAt != 0 && now > c.expiresAt
  }

  predicate UsedBeforeIssued(c: Claims, now: int) {
    c.issuedAt != 0 && now < c.issuedAt
  }

  predicate NotYetValid(c: Claims, now: int) {
    c.notBefore != 0 && now < c.notBefore
  }

  predicate ClaimsValid(c: Claims, now: int) {
    !ClaimsExpired(c, now) && !UsedBeforeIssued(c, now) && !NotYetValid(c, now)
  }

  const MsgMalformed := "token is malformed"
  const MsgExpired := "token is expired"
  const MsgUsedBeforeIssued := "Token used before issued"
  const MsgNotValidYet := "token is not valid yet"
  const MsgSignatureInvalid := "signature is invalid"

  /** The text of the claims error: the checks run in the order expiry,
      issued-at, not-before, and the last one that fails names the error. */
  function ClaimsError(c: Claims, now: int): string {
    if NotYetValid(c, now) then MsgNotValidYet
    else if UsedBeforeIssued(c, now) then MsgUsedBeforeIssued
    else MsgExpired
  }

  /** What a call of ValidateToken does: it returns the claims or an error, or
      it panics. */
  datatype Validated = Panics | Returns(result: Result<Claims>)

  predicate Accepted(v: Validated) {
    v.Returns? && v.result.Ok?
  }

  /** ValidateToken. For a token that does not split into three segments the
      library hands back a nil token, and reading its claims panics; nothing in
      the program recovers. Otherwise the key callback refuses every non-HMAC
      method (its error comes back wrapped by the library, so not as a typed
      service error). The registered claims are checked next and the signature
      last; a bad signature names the error even when a claim failed too. The
      claims come back only for a well-formed, correctly signed token whose
      time claims all hold. */
  function ValidateToken(svc: JwtService, token: string, now: int): (r: Validated)
    ensures r.Panics? <==> !ThreeSegments(token)
    ensures ThreeSegments(token) && svc.codec.decode(token).None? ==> r.Returns? && r.result.Err?
    ensures ThreeSegments(token) && svc.codec.decode(token).Some? && !IsHmac(svc.codec.decode(token).value.alg) ==>
              r.Returns? && r.result.Err?
    ensures ThreeSegments(token) && svc.codec.decode(token).Some? ==>
              var d := svc.codec.decode(token).value;
              && (IsHmac(d.alg) && d.key != svc.config.secretKey ==> r == Returns(Err(Other(MsgSignatureInvalid))))
              && (IsHmac(d.alg) && d.key == svc.config.secretKey && !ClaimsValid(d.claims, now) ==>
                    r == Returns(Err(Other(ClaimsError(d.claims, now)))))
    ensures Accepted(r) <==>
              && ThreeSegments(token)
              && svc.codec.decode(token).Some?
              && IsHmac(svc.codec.decode(token).value.alg)
              && svc.codec.decode(token).value.key == svc.config.secretKey
              && ClaimsValid(svc.codec.decode(token).value.claims, now)
    ensures Accepted(r) ==> r.result.value == svc.codec.decode(token).value.claims
    ensures r.Returns? && r.result.Err? ==> !IsTyped(r.result.error)
  {
    if !ThreeSegments(token) then Panics
    else match svc.codec.decode(token)
      case None => Returns(Err(Other(MsgMalformed)))
      case Some(d) =>
        if !IsHmac(d.alg) then Returns(Err(Other("")))
        else if d.key != svc.config.secretKey then Returns(Err(Other(MsgSignatureInvalid)))
        else if !ClaimsValid(d.claims, now) then Returns(Err(Other(ClaimsError(d.claims, now))))
        else Returns(Ok(d.claims))
  }

  /** A token without dots, such as the "abc" of "Bearer abc", panics. */
  lemma {:induction false} DotlessTokenPanics(svc: JwtService, token: string, now: int)
    requires forall k :: 0 <= k < |token| ==> token[k] != '.'
    ensures ValidateToken(svc, token, now) == Panics
  {
  }

  /** A correctly signed token whose issued-at or not-before instant lies
      after now is refused, whatever its expiry. */
  lemma {:induction false} EarlyTokenRefused(svc: JwtService, c: Claims, now: int)
    requires Consistent(svc.codec)
    requires svc.codec.sign(c, svc.config.secretKey).Some?
    requires UsedBeforeIssued(c, now) || NotYetValid(c, now)
    ensures ValidateToken(svc, svc.codec.sign(c, svc.config.secretKey).value, now)
            == Returns(Err(Other(if NotYetValid(c, now) then MsgNotValidYet else MsgUsedBeforeIssued)))
  {
  }

  /** A token this service issued validates, up to its expiry, to claims naming
      the account it was issued for. */
  lemma {:induction false} IssuedTokenValidates(svc: JwtService, user: UserDto, issuedAt: int, now: int)
    requires Consistent(svc.codec)
    requires GenerateJWT(svc, user, issuedAt).Ok?
    requires now <= issuedAt + svc.config.expirationHours * SecondsPerHour
    ensures ValidateToken(svc, GenerateJWT(svc, user, issuedAt).value, now)
            == Returns(Ok(CreateUserClaims(svc.config, user, issuedAt)))
    ensures ValidateToken(svc, GenerateJWT(svc, user, issuedAt).value, now).result.value.id == user.id
  {
    var c := CreateUserClaims(svc.config, user, issuedAt);
    assert svc.codec.sign(c, svc.config.secretKey).Some?;
    assert svc.codec.decode(svc.codec.sign(c, svc.config.secretKey).value) == Some(Decoded(HS256, c, svc.config.secretKey));
  }

  /** ... and is refused once its lifetime is over. */
  lemma {:induction false} IssuedTokenExpires(svc: JwtService, user: UserDto, issuedAt: int, now: int)
    requires Consistent(svc.codec)
    requires GenerateJWT(svc, user, issuedAt).Ok?
    requires issuedAt + svc.config.expirationHours * SecondsPerHour != 0
    requires now > issuedAt + svc.config.expirationHours * SecondsPerHour
    ensures ValidateToken(svc, GenerateJWT(svc, user, issuedAt).value, now) == Returns(Err(Other(MsgExpired)))
  {
    var c := CreateUserClaims(svc.config, user, issuedAt);
    assert svc.codec.sign(c, svc.config.secretKey).Some?;
    assert svc.codec.decode(svc.codec.sign(c, svc.config.secretKey).value) == Some(Decoded(HS256, c, svc.config.secretKey));
  }
}

=== FILE: legacy_user.dfy ===
/** The legacy user directory (internal/user/user_service.go), the one the JWT
    service and the request middleware use. It differs from the `users` package
    only in SaveUser: the legacy service passes the request on unchanged, and
    the column defaults of its schema (internal/user/user.go:14-15) fill in an
    empty role or status when the row is created. The lookups and the update
    share their definition with `Users`. */
module LegacyUser {
  import opened ServiceErrors
  import opened UserTypes
  import opened UserStore
  import Users

  /** The column defaults gorm applies to a zero field on create: role 'User'
      and status 'Pending'; every other field is kept. */
  function SchemaDefaults(d: UserDto): (d': UserDto)
    ensures d'.role != RoleNone && d'.status != StatusNone
    ensures d.role != RoleNone ==> d'.role == d.role
    ensures d.role == RoleNone ==> d'.role == RoleUser
    ensures d.status != StatusNone ==> d'.status == d.status
    ensures d.status == StatusNone ==> d'.status == Pending
    ensures d' == d.(role := d'.role, status := d'.status)
  {
    d.(role := if d.role == RoleNone then RoleUser else d.role,
       status := if d.status == StatusNone then Pending else d.status)
  }

  /** SaveUser: the row is created from the request as given, with the schema
      defaults written into it and into the returned account. */
  function SaveUser(db: Directory, d: UserDto, newId: string): (r: Step<Directory, UserDto>)
    requires Valid(db)
    ensures Valid(r.state) && r.state.faults == db.faults
    ensures r.result.Err? ==> r.state == db
    ensures QueryByEmail in db.faults ==> r.result == Err(InternalServer(Users.MsgFetchByEmailFailed))
    ensures QueryByEmail !in db.faults && HasEmail(db, d.email) ==>
              r.result == Err(BadRequest(Users.MsgEmailExists))
    ensures r.result.Ok? <==>
              QueryByEmail !in db.faults && QuerySave !in db.faults
              && !HasEmail(db, d.email) && newId !in db.accounts
    ensures r.result.Err? && QueryByEmail !in db.faults && !HasEmail(db, d.email) ==>
              r.result == Err(InternalServer(Users.MsgSaveFailed))
    ensures r.result.Ok? ==>
              var u := r.result.value;
              && u.id == newId
              && u.role == (if d.role == RoleNone then RoleUser else d.role)
              && u.status == (if d.status == StatusNone then Pending else d.status)
              && u == d.(id := newId, role := u.role, status := u.status)
              && r.state.accounts == db.accounts[newId := ToUserModel(u)]
  {
    Users.Create(db, SchemaDefaults(d), newId)
  }

  /** Both packages store an empty role as User: the legacy one through its
      schema default, the current one through SaveUser's own defaulting. When
      the request names a status the two saves are the same. */
  lemma EmptyRoleBecomesUserInBoth(db: Directory, d: UserDto, newId: string)
    requires Valid(db)
    requires SaveUser(db, d, newId).result.Ok?
    ensures Users.SaveUser(db, d, newId).result.Ok?
    ensures SaveUser(db, d, newId).result.value.role == Users.SaveUser(db, d, newId).result.value.role
    ensures d.role == RoleNone ==> SaveUser(db, d, newId).result.value.role == RoleUser
    ensures d.status != StatusNone ==> SaveUser(db, d, newId) == Users.SaveUser(db, d, newId)
  {
  }

  function UpdateUser(db: Directory, id: string, d: UserDto): (r: Step<Directory, UserDto>)
    requires Valid(db)
    ensures Valid(r.state) && r.state.faults == db.faults
    ensures r.result.Err? ==> r.state == db
    ensures QueryById in db.faults || id !in db.accounts ==> r.result == Err(InternalServer(Users.MsgFindFailed))
    ensures QueryById !in db.faults && id in db.accounts && r.result.Err? ==>
              r.result == Err(InternalServer(Users.MsgUpdateFailed))
    ensures r.result.Ok? <==>
              QueryById !in db.faults && QuerySave !in db.faults && id in db.accounts
              && !EmailTakenByOther(db, id, Users.Merge(db.accounts[id], d).email)
    ensures r.result.Ok? ==>
              id in db.accounts
              && r.result.value == ToUserDto(Users.Merge(db.accounts[id], d))
              && r.state.accounts == db.accounts[id := Users.Merge(db.accounts[id], d)]
  {
    Users.UpdateUser(db, id, d)
  }

  function UpsertUser(db: Directory, d: UserDto, newId: string): (r: Step<Directory, UserDto>)
    requires Valid(db)
    ensures Valid(r.state) && r.state.faults == db.faults
    ensures r.result.Err? ==> r.state == db
    ensures QueryByEmail in db.faults ==>
              r.result == Err(InternalServer(Users.MsgFetchByEmailFailed))
    ensures QueryByEmail !in db.faults && HasEmail(db, d.email) ==>
              r.state.accounts.Keys == db.accounts.Keys
    // the account holding the email is merged with the request, and only it
    ensures forall k :: QueryByEmail !in db.faults && k in db.accounts && db.accounts[k].email == d.email ==>
              && (r.result.Ok? <==> QueryById !in db.faults && QuerySave !in db.faults)
              && (r.result.Err? ==> r.result == Err(InternalServer(if QueryById in db.faults then Users.MsgFindFailed
                                                                  else Users.MsgUpdateFailed)))
              && (r.result.Ok? ==> r.state.accounts == db.accounts[k := Users.Merge(db.accounts[k], d)]
                                   && r.result.value == ToUserDto(Users.Merge(db.accounts[k], d)))
    ensures QueryByEmail !in db.faults && !HasEmail(db, d.email) ==>
              r == SaveUser(db, d, newId)
    ensures r.result.Ok? ==>
              r.result.value.id in r.state.accounts
              && r.state.accounts[r.result.value.id] == ToUserModel(r.result.value)
  {
    Users.UpsertWith(db, d, SaveUser(db, d, newId))
  }

  function FindById(db: Directory, id: string): (r: Result<UserDto>)
    ensures QueryById !in db.faults && id !in db.accounts ==>
              r == Err(NotFound(Users.MsgUserNotFound))
    ensures QueryById in db.faults ==> r == Err(InternalServer(Users.MsgFetchByIdFailed))
    ensures r.Ok? <==> QueryById !in db.faults && id in db.accounts
    ensures r.Ok? ==> ToUserModel(r.value) == db.accounts[id]
  {
    Users.FindById(db, id)
  }

  function FindByEmail(db: Directory, email: string): (r: Result<UserDto>)
    requires Valid(db)
    ensures QueryByEmail !in db.faults && !HasEmail(db, email) ==>
              r == Err(NotFound(Users.MsgUserNotFound))
    ensures QueryByEmail in db.faults ==> r == Err(InternalServer(Users.MsgFetchByEmailFailed))
    ensures r.Ok? <==> QueryByEmail !in db.faults && HasEmail(db, email)
    ensures r.Ok? ==> r.value.email == email && r.value.id in db.accounts && ToUserModel(r.value) == db.accounts[r.value.id]
  {
    Users.FindByEmail(db, email)
  }
}

=== FILE: models.dfy ===
/** The catalogue of synthesis models (internal/model/): the record and its
    transfer object, the models table as a sequence in storage order (the order
    `FindAll` returns), and the model service. The schema's primary key on `id`
    and unique index on (name, language) are the table's invariant; a write
    that would break either is refused. Queries named in `faults` fail with an
    error other than "record not found". */
module Models {
  import opened ServiceErrors
  import Validation

  datatype Model = Model(id: string, url: string, name: string, language: string, createdAt: int)
  datatype ModelDto = ModelDto(id: string, url: string, name: string, language: string, createdAt: int)

  function ToModelModel(d: ModelDto): (m: Model)
    ensures m.id == d.id && m.url == d.url && m.name == d.name && m.language == d.language
    ensures m.createdAt == d.createdAt
  {
    Model(d.id, d.url, d.name, d.language, d.createdAt)
  }

  function ToModelDto(m: Model): (d: ModelDto)
    ensures d.id == m.id && d.url == m.url && d.name == m.name && d.language == m.language
    ensures d.createdAt == m.createdAt
  {
    ModelDto(m.id, m.url, m.name, m.language, m.createdAt)
  }

  lemma ModelDtoRoundTrip(d: ModelDto)
    ensures ToModelDto(ToModelModel(d)) == d
  {
  }

  lemma ModelModelRoundTrip(m: Model)
    ensures ToModelModel(ToModelDto(m)) == m
  {
  }

  datatype ModelQuery = QueryById | QueryByNameAndLanguage | QuerySave | QueryFindAll | QueryDeleteById

  datatype Catalogue = Catalogue(models: seq<Model>, faults: set<ModelQuery>)

  /** No two models share an id, or a (name, language) pair. */
  predicate Valid(c: Catalogue) {
    forall i, j :: 0 <= i < |c.models| && 0 <= j < |c.models| && i != j ==>
      c.models[i].id != c.models[j].id
      && (c.models[i].name != c.models[j].name || c.models[i].language != c.models[j].language)
  }

  predicate HasId(c: Catalogue, id: string) {
    exists i :: 0 <= i < |c.models| && c.models[i].id == id
  }

  predicate HasKey(c: Catalogue, name: string, language: string) {
    exists i :: 0 <= i < |c.models| && c.models[i].name == name && c.models[i].language == language
  }

  /** A model other than `id` already has the pair. */
  predicate KeyTakenByOther(c: Catalogue, id: string, name: string, language: string) {
    exists i :: 0 <= i < |c.models| && c.models[i].id != id
                && c.models[i].name == name && c.models[i].language == language
  }

  /** The position of the model with that id. */
  function IndexOf(models: seq<Model>, id: string): (r: Option<nat>)
    ensures r.Some? ==> r.value < |models| && models[r.value].id == id
    ensures r.None? ==> forall i :: 0 <= i < |models| ==> models[i].id != id
  {
    if |models| == 0 then None
    else if models[0].id == id then Some(0)
    else match IndexOf(models[1..], id)
      case None => None
      case Some(i) => Some(i + 1)
  }

  const MsgFetchKeyOnSaveFailed := "Failed to model by name and language"
  const MsgDuplicate := "Model with this name and language already exists"
  const MsgSaveFailed := "Failed to save model"
  const MsgNotFound := "Model not found"
  const MsgFetchFailed := "Failed to fetch model"
  const MsgFetchKeyFailed := "Failed to fetch model by name and language"
  const MsgUpdateFailed := "Failed to update model"
  const MsgFetchByIdFailed := "Failed to fetch model by Id"
  const MsgDeleteFailed := "Failed to delete model"
  const MsgFetchModelsFailed := "Failed to fetch models"

  /** SaveModel: reject a known (name, language), then append the new model
      under the id `BeforeCreate` draws, stamped with the current time. */
  function SaveModel(c: Catalogue, req: Validation.ModelRequest, newId: string, now: int): (r: Step<Catalogue, ModelDto>)
    requires Valid(c)
    ensures Valid(r.state) && r.state.faults == c.faults
    ensures r.result.Err? ==> r.state == c
    ensures QueryByNameAndLanguage in c.faults ==> r.result == Err(InternalServer(MsgFetchKeyOnSaveFailed))
    ensures QueryByNameAndLanguage !in c.faults && HasKey(c, req.name, req.language) ==>
              r.result == Err(BadRequest(MsgDuplicate))
    ensures r.result.Ok? <==>
              QueryByNameAndLanguage !in c.faults && QuerySave !in c.faults
              && !HasKey(c, req.name, req.language) && !HasId(c, newId)
    ensures r.result.Err? && QueryByNameAndLanguage !in c.faults && !HasKey(c, req.name, req.language) ==>
              r.result == Err(InternalServer(MsgSaveFailed))
    ensures r.result.Ok? ==>
              var m := ToModelModel(r.result.value);
              && m == Model(newId, req.url, req.name, req.language, now)
              && r.state.models == c.models + [m]
  {
    if QueryByNameAndLanguage in c.faults then Step(c, Err(InternalServer(MsgFetchKeyOnSaveFailed)))
    else if HasKey(c, req.name, req.language) then Step(c, Err(BadRequest(MsgDuplicate)))
    else
      var m := Model(newId, req.url, req.name, req.language, now);
      if QuerySave in c.faults || HasId(c, newId) then Step(c, Err(InternalServer(MsgSaveFailed)))
      else Step(c.(models := c.models + [m]), Ok(ToModelDto(m)))
  }

  /** The model UpdateModel writes: a non-empty url, name or language replaces
      the stored one; the id and the creation time are kept. */
  function Override(m: Model, req: Validation.ModelRequest): Model {
    m.(url := if req.url != "" then req.url else m.url,
       name := if req.name != "" then req.name else m.name,
       language := if req.language != "" then req.language else m.language)
  }

  lemma OverrideFieldwise(m: Model, req: Validation.ModelRequest)
    ensures Override(m, req).id == m.id && Override(m, req).createdAt == m.createdAt
    ensures (req.url != "" ==> Override(m, req).url == req.url) && (req.url == "" ==> Override(m, req).url == m.url)
    ensures (req.name != "" ==> Override(m, req).name == req.name) && (req.name == "" ==> Override(m, req).name == m.name)
    ensures (req.language != "" ==> Override(m, req).language == req.language)
            && (req.language == "" ==> Override(m, req).language == m.language)
    ensures Override(Override(m, req), req) == Override(m, req)
  {
  }

  /** UpdateModel. The duplicate check looks up the request's own pair, so a
      request that leaves the name or the language empty can pass it and still
      collide with another model once merged; the table's unique index then
      refuses the write. */
  function UpdateModel(c: Catalogue, id: string, req: Validation.ModelRequest): (r: Step<Catalogue, ModelDto>)
    requires Valid(c)
    ensures Valid(r.state) && r.state.faults == c.faults
    ensures r.result.Err? ==> r.state == c
    ensures QueryById in c.faults ==> r.result == Err(InternalServer(MsgFetchFailed))
    ensures QueryById !in c.faults && !HasId(c, id) ==> r.result == Err(NotFound(MsgNotFound))
    ensures QueryById !in c.faults && HasId(c, id) && QueryByNameAndLanguage in c.faults ==>
              r.result == Err(InternalServer(MsgFetchKeyFailed))
    // only a different model holding the requested pair is a conflict
    ensures r.result == Err(BadRequest(MsgDuplicate)) <==>
              QueryById !in c.faults && HasId(c, id) && QueryByNameAndLanguage !in c.faults
              && KeyTakenByOther(c, id, req.name, req.language)
    // a write refused by an outage or by the unique index
    ensures r.result.Err? && QueryById !in c.faults && HasId(c, id) && QueryByNameAndLanguage !in c.faults
            && !KeyTakenByOther(c, id, req.name, req.language) ==>
              r.result == Err(InternalServer(MsgUpdateFailed))
    ensures r.result.Ok? ==>
              && IndexOf(c.models, id).Some?
              && var i := IndexOf(c.models, id).value;
              && r.state.models == c.models[i := Override(c.models[i], req)]
              && r.result.value == ToModelDto(Override(c.models[i], req))
    ensures r.result.Ok? <==>
              && QueryById !in c.faults && HasId(c, id) && QueryByNameAndLanguage !in c.faults
              && !KeyTakenByOther(c, id, req.name, req.language)
              && QuerySave !in c.faults
              && var m := Override(c.models[IndexOf(c.models, id).value], req);
                 !KeyTakenByOther(c, id, m.name, m.language)
  {
    if QueryById in c.faults then Step(c, Err(InternalServer(MsgFetchFailed)))
    else match IndexOf(c.models, id)
      case None => Step(c, Err(NotFound(MsgNotFound)))
      case Some(i) =>
        if QueryByNameAndLanguage in c.faults then Step(c, Err(InternalServer(MsgFetchKeyFailed)))
        else if KeyTakenByOther(c, id, req.name, req.language) then Step(c, Err(BadRequest(MsgDuplicate)))
        else
          var m := Override(c.models[i], req);
          if QuerySave in c.faults || KeyTakenByOther(c, id, m.name, m.language) then
            Step(c, Err(InternalServer(MsgUpdateFailed)))
          else
            Step(c.(models := c.models[i := m]), Ok(ToModelDto(m)))
  }

  /** The request's pair is free but the merged pair is not: the update is
      refused by the unique index, as InternalServer rather than BadRequest. */
  lemma {:induction false} PartialRenameCanCollide()
    ensures var c := Catalogue([Model("a", "u", "x", "en", 0), Model("b", "u", "y", "en", 0)], {});
            var req := Validation.ModelRequest("", "y", "");
            && Valid(c)
            && !KeyTakenByOther(c, "a", req.name, req.language)
            && UpdateModel(c, "a", req).result == Err(InternalServer(MsgUpdateFailed))
  {
    var c := Catalogue([Model("a", "u", "x", "en", 0), Model("b", "u", "y", "en", 0)], {});
    var req := Validation.ModelRequest("", "y", "");
    assert c.models[1].name == "y" && c.models[1].language == "en" && c.models[1].id != "a";
    assert KeyTakenByOther(c, "a", "y", "en");
  }

  /** DeleteModel: the model with that id is removed, every other one kept. */
  function DeleteModel(c: Catalogue, id: string): (r: Step<Catalogue, ()>)
    requires Valid(c)
    ensures Valid(r.state) && r.state.faults == c.faults
    ensures r.result.Err? ==> r.state == c
    ensures QueryById in c.faults ==> r.result == Err(InternalServer(MsgFetchByIdFailed))
    ensures QueryById !in c.faults && !HasId(c, id) ==> r.result == Err(NotFound(MsgNotFound))
    ensures r.result.Ok? <==> QueryById !in c.faults && HasId(c, id) && QueryDeleteById !in c.faults
    ensures r.result.Err? && QueryById !in c.faults && HasId(c, id) ==>
              r.result == Err(InternalServer(MsgDeleteFailed))
    ensures r.result.Ok? ==>
              && |r.state.models| == |c.models| - 1
              && !HasId(r.state, id)
              && (forall m :: m in c.models && m.id != id ==> m in r.state.models)
              && (forall m :: m in r.state.models ==> m in c.models)
  {
    if QueryById in c.faults then Step(c, Err(InternalServer(MsgFetchByIdFailed)))
    else match IndexOf(c.models, id)
      case None => Step(c, Err(NotFound(MsgNotFound)))
      case Some(i) =>
        if QueryDeleteById in c.faults then Step(c, Err(InternalServer(MsgDeleteFailed)))
        else
          var rest := c.models[..i] + c.models[i + 1..];
          assert forall j :: 0 <= j < |rest| ==> rest[j] == c.models[if j < i then j else j + 1];
          Step(c.(models := rest), Ok(()))
  }

  function GetModelById(c: Catalogue, id: string): (r: Result<ModelDto>)
    requires Valid(c)
    ensures QueryById in c.faults ==> r == Err(InternalServer(MsgFetchModelsFailed))
    ensures QueryById !in c.faults ==> (r.Ok? <==> HasId(c, id))
    ensures QueryById !in c.faults && !HasId(c, id) ==> r == Err(NotFound(MsgNotFound))
    ensures r.Ok? ==> r.value.id == id && ToModelModel(r.value) in c.models
  {
    if QueryById in c.faults then Err(InternalServer(MsgFetchModelsFailed))
    else match IndexOf(c.models, id)
      case None => Err(NotFound(MsgNotFound))
      case Some(i) => Ok(ToModelDto(c.models[i]))
  }

  /** GetModels: the whole catalogue, in storage order. */
  method GetModels(c: Catalogue) returns (r: Result<seq<ModelDto>>)
    ensures QueryFindAll in c.faults ==> r == Err(InternalServer(MsgFetchModelsFailed))
    ensures QueryFindAll !in c.faults ==> r.Ok?
    ensures r.Ok? ==>
              && |r.value| == |c.models|
              && forall i :: 0 <= i < |c.models| ==> ToModelModel(r.value[i]) == c.models[i]
  {
    if QueryFindAll in c.faults {
      return Err(InternalServer(MsgFetchModelsFailed));
    }
    var dtos: seq<ModelDto> := [];
    var i := 0;
    while i < |c.models|
      invariant 0 <= i <= |c.models|
      invariant |dtos| == i
      invariant forall j :: 0 <= j < i ==> ToModelModel(dtos[j]) == c.models[j]
    {
      dtos := dtos + [ToModelDto(c.models[i])];
      i := i + 1;
    }
    return Ok(dtos);
  }

  /** After a save, the new model can be fetched back by its id. */
  lemma {:induction false} SavedModelIsFound(c: Catalogue, req: Validation.ModelRequest, newId: string, now: int)
    requires Valid(c) && QueryById !in c.faults
    requires SaveModel(c, req, newId, now).result.Ok?
    ensures GetModelById(SaveModel(c, req, newId, now).state, newId) == SaveModel(c, req, newId, now).result
  {
    var s := SaveModel(c, req, newId, now);
    assert s.state.models[|c.models|].id == newId;
    var i := IndexOf(s.state.models, newId).value;
    assert i == |c.models|;
  }
}

=== FILE: router_middleware.dfy ===
/** The token-only request gates (internal/router/middleware/auth.go): they
    validate the bearer token and record the id it names, without looking the
    account up. */
module RouterMiddleware {
  import opened ServiceErrors
  import UserStore
  import UserTypes
  import Jwt
  import Bearer
  import AuthMiddleware

  /** Hand the request on, with the `userId` local set or not, answer it, or
      panic (the token validation panics and nothing recovers). */
  datatype RouteGate = Next(userId: Option<string>) | Reject(status: int, message: string) | Crash

  /** Whether the header carries a token whose validation panics. */
  predicate Panicking(jwt: Jwt.JwtService, now: int, header: string) {
    Bearer.ExtractToken(header).Some? && Jwt.ValidateToken(jwt, Bearer.ExtractToken(header).value, now).Panics?
  }

  /** The id a header proves, if any. */
  function TokenId(jwt: Jwt.JwtService, now: int, header: string): (id: Option<string>)
    ensures id.Some? <==>
              Bearer.ExtractToken(header).Some?
              && Jwt.Accepted(Jwt.ValidateToken(jwt, Bearer.ExtractToken(header).value, now))
    ensures id.Some? ==> id.value == Jwt.ValidateToken(jwt, Bearer.ExtractToken(header).value, now).result.value.id
  {
    match Bearer.ExtractToken(header)
    case None => None
    case Some(token) =>
      match Jwt.ValidateToken(jwt, token, now)
      case Returns(Ok(claims)) => Some(claims.id)
      case _ => None
  }

  /** OpenRoute: hands the request on, with the id of a valid token, unless the
      validation panics. */
  function OpenRoute(jwt: Jwt.JwtService, now: int, header: string): (g: RouteGate)
    ensures g.Crash? <==> Panicking(jwt, now, header)
    ensures !g.Crash? ==> g == Next(TokenId(jwt, now, header))
  {
    match Bearer.ExtractToken(header)
    case None => Next(None)
    case Some(token) =>
      match Jwt.ValidateToken(jwt, token, now)
      case Panics => Crash
      case Returns(Err(_)) => Next(None)
      case Returns(Ok(claims)) => Next(Some(claims.id))
  }

  /** ProtectedRoute: a valid token is required and suffices. */
  function ProtectedRoute(jwt: Jwt.JwtService, now: int, header: string): (g: RouteGate)
    ensures Bearer.ExtractToken(header).None? ==> g == Reject(StatusUnauthorized, AuthMiddleware.MsgMissingToken)
    ensures g.Crash? <==> Panicking(jwt, now, header)
    ensures Bearer.ExtractToken(header).Some? && !Panicking(jwt, now, header) && TokenId(jwt, now, header).None? ==>
              g == Reject(StatusUnauthorized, AuthMiddleware.MsgInvalidToken)
    ensures g.Next? <==> TokenId(jwt, now, header).Some?
    ensures g.Next? ==> g.userId == TokenId(jwt, now, header)
  {
    match Bearer.ExtractToken(header)
    case None => Reject(StatusUnauthorized, AuthMiddleware.MsgMissingToken)
    case Some(token) =>
      match Jwt.ValidateToken(jwt, token, now)
      case Panics => Crash
      case Returns(Err(_)) => Reject(StatusUnauthorized, AuthMiddleware.MsgInvalidToken)
      case Returns(Ok(claims)) => Next(Some(claims.id))
  }

  /** The two kinds of gate panic on the same headers. */
  lemma GatesPanicAlike(db: UserStore.Directory, jwt: Jwt.JwtService, now: int, header: string,
                        roles: seq<UserTypes.Role>)
    ensures ProtectedRoute(jwt, now, header).Crash? <==> AuthMiddleware.ProtectedRoute(db, jwt, now, header, roles).Crash?
    ensures OpenRoute(jwt, now, header).Crash? <==> AuthMiddleware.OpenRoute(db, jwt, now, header).Crash?
  {
  }

  /** The account-aware gate is the stricter one: whatever it lets through, the
      token-only gate lets through too, with the id of the attached account. */
  lemma AccountGateIsStricter(db: UserStore.Directory, jwt: Jwt.JwtService, now: int, header: string,
                              roles: seq<UserTypes.Role>)
    requires UserStore.Valid(db)
    requires AuthMiddleware.ProtectedRoute(db, jwt, now, header, roles).Proceed?
    ensures ProtectedRoute(jwt, now, header)
            == Next(Some(AuthMiddleware.ProtectedRoute(db, jwt, now, header, roles).user.value.id))
  {
  }
}

=== FILE: sso.dfy ===
/** Single sign-on providers (internal/auth/sso/sso_provider.go) and the GitHub
    provider (internal/auth/sso/github_sso_provider.go). The OAuth2 library and
    the HTTP round trips are inputs: a GET is modelled by what it produced. */
module Sso {
  import opened ServiceErrors
  import opened UserTypes

  /** The capability set of a provider: the authorisation URL for a state
      string, the code-for-token exchange, and the normalised profile. */
  datatype SsoProvider = SsoProvider(
    authCodeUrl: string -> string,
    exchange: string -> Result<string>,
    fetchUserInfo: string -> Result<UserDto>)

  /** The outcome of one GET: the transport failed, the body could not be read,
      or the body, decoded as JSON into `T` (None when that fails). */
  datatype Fetched<+T> = TransportError | ReadError | Body(decoded: Option<T>)

  datatype GithubUser = GithubUser(login: string, email: string, avatarUrl: string)
  datatype GithubEmail = GithubEmail(email: string, primary: bool, verified: bool)

  const UserInfoEndpoint := "https://api.github.com/user"
  const UserEmailEndpoint := "https://api.github.com/user/emails"

  const MsgFetchInfoFailed := "Failed to fetch user info"
  const MsgReadInfoFailed := "Failed to read user info"
  const MsgDecodeInfoFailed := "Failed to unmarshal user info"
  const MsgFetchEmailFailed := "Failed to fetch user email"
  const MsgReadEmailFailed := "Failed to read user email"
  const MsgDecodeEmailFailed := "Failed to unmarshal user email"
  const MsgEmailNotFound := "User email not found"

  /** buildUserModel: login, email and avatar become username, email and picture;
      role, status and provider stay empty. */
  function BuildUserModel(body: Option<GithubUser>): (r: Result<UserDto>)
    ensures body.None? ==> r == Err(InternalServer(MsgDecodeInfoFailed))
    ensures body.Some? ==>
              && r.Ok?
              && r.value.username == body.value.login
              && r.value.email == body.value.email
              && r.value.pictureUrl == body.value.avatarUrl
              && r.value.role == RoleNone && r.value.status == StatusNone
              && r.value.provider == "" && r.value.password == "" && r.value.id == ""
  {
    match body
    case None => Err(InternalServer(MsgDecodeInfoFailed))
    case Some(g) => Ok(NewDto(g.email, "", g.login, RoleNone, StatusNone, "", g.avatarUrl))
  }

  predicate Usable(e: GithubEmail) {
    e.primary && e.verified
  }

  /** The position of the first address that is both primary and verified. */
  function FirstUsable(es: seq<GithubEmail>): (r: Option<nat>)
    ensures r.Some? ==> r.value < |es| && Usable(es[r.value])
    ensures r.Some? ==> forall j :: 0 <= j < r.value ==> !Usable(es[j])
    ensures r.None? ==> forall j :: 0 <= j < |es| ==> !Usable(es[j])
  {
    if |es| == 0 then None
    else if Usable(es[0]) then Some(0)
    else match FirstUsable(es[1..])
      case None => None
      case Some(i) => Some(i + 1)
  }

  /** fetchUserEmail: the first entry that is both primary and verified. */
  function FetchUserEmail(resp: Fetched<seq<GithubEmail>>): (r: Result<string>)
    ensures resp.TransportError? ==> r == Err(BadGateway(MsgFetchEmailFailed))
    ensures resp.ReadError? ==> r == Err(InternalServer(MsgReadEmailFailed))
    ensures resp == Body(None) ==> r == Err(InternalServer(MsgDecodeEmailFailed))
    ensures resp.Body? && resp.decoded.Some? ==>
              var es := resp.decoded.value;
              && (r.Ok? <==> exists i :: 0 <= i < |es| && Usable(es[i]))
              && (r.Err? ==> r.error == NotFound(MsgEmailNotFound))
              && (r.Ok? ==> exists i :: 0 <= i < |es| && Usable(es[i]) && es[i].email == r.value
                                        && forall j :: 0 <= j < i ==> !Usable(es[j]))
  {
    match resp
    case TransportError => Err(BadGateway(MsgFetchEmailFailed))
    case ReadError => Err(InternalServer(MsgReadEmailFailed))
    case Body(None) => Err(InternalServer(MsgDecodeEmailFailed))
    case Body(Some(es)) =>
      match FirstUsable(es)
      case Some(i) => Ok(es[i].email)
      case None => Err(NotFound(MsgEmailNotFound))
  }

  /** FetchUserInfo: the profile, completed from the e-mail endpoint only when
      the profile carries no e-mail. */
  function FetchUserInfo(profile: Fetched<GithubUser>, emails: Fetched<seq<GithubEmail>>): (r: Result<UserDto>)
    ensures profile.TransportError? ==> r == Err(BadGateway(MsgFetchInfoFailed))
    ensures profile.ReadError? ==> r == Err(InternalServer(MsgReadInfoFailed))
    ensures profile == Body(None) ==> r == Err(InternalServer(MsgDecodeInfoFailed))
    ensures profile.Body? && profile.decoded.Some? && profile.decoded.value.email != "" ==>
              r == BuildUserModel(profile.decoded)
    ensures profile.Body? && profile.decoded.Some? && profile.decoded.value.email == "" ==>
              match FetchUserEmail(emails)
              case Ok(e) => r == Ok(BuildUserModel(profile.decoded).value.(email := e))
              case Err(err) => r == Err(err)
  {
    match profile
    case TransportError => Err(BadGateway(MsgFetchInfoFailed))
    case ReadError => Err(InternalServer(MsgReadInfoFailed))
    case Body(decoded) =>
      match BuildUserModel(decoded)
      case Err(err) => Err(err)
      case Ok(user) =>
        if user.email == "" then
          match FetchUserEmail(emails)
          case Err(err) => Err(err)
          case Ok(e) => Ok(user.(email := e))
        else Ok(user)
  }

  /** When the profile has an e-mail the e-mail endpoint's answer is irrelevant. */
  lemma EmailEndpointUnusedWhenProfileHasEmail(g: GithubUser, e1: Fetched<seq<GithubEmail>>,
                                               e2: Fetched<seq<GithubEmail>>)
    requires g.email != ""
    ensures FetchUserInfo(Body(Some(g)), e1) == FetchUserInfo(Body(Some(g)), e2)
  {
  }

  /** The two GETs, as functions of the access token. */
  datatype GithubApi = GithubApi(
    user: string -> Fetched<GithubUser>,
    userEmails: string -> Fetched<seq<GithubEmail>>)

  /** The GitHub provider: the OAuth2 configuration's URL builder and exchange,
      and the profile fetch above. */
  function GithubProvider(authCodeUrl: string -> string, exchange: string -> Result<string>,
                          api: GithubApi): SsoProvider
  {
    SsoProvider(authCodeUrl, exchange, t => FetchUserInfo(api.user(t), api.userEmails(t)))
  }
}

=== FILE: tokens.dfy ===
/** Single-purpose, time-limited verification tokens (internal/token/): the
    record and its transfer object, the tokens table keyed by the token string
    (a unique index in the schema), and the token service. */
module Tokens {
  import opened ServiceErrors

  datatype Purpose = EmailVerification | PasswordReset

  function PurposeName(p: Purpose): string {
    match p
    case EmailVerification => "email_verification"
    case PasswordReset => "password_reset"
  }

  /** The stored row; times are Unix seconds. */
  datatype Token = Token(id: string, userId: string, token: string, purpose: Purpose,
                         createdAt: int, expiresAt: int)

  datatype TokenDto = TokenDto(id: string, userId: string, token: string, purpose: Purpose,
                               createdAt: int, expiresAt: int)

  function ToVerificationTokenModel(d: TokenDto): (m: Token)
    ensures m.purpose == d.purpose && m.expiresAt == d.expiresAt && m.userId == d.userId
    ensures m.token == d.token && m.id == d.id && m.createdAt == d.createdAt
  {
    Token(d.id, d.userId, d.token, d.purpose, d.createdAt, d.expiresAt)
  }

  function ToVerificationTokenDto(m: Token): (d: TokenDto)
    ensures d.purpose == m.purpose && d.expiresAt == m.expiresAt && d.userId == m.userId
    ensures d.token == m.token && d.id == m.id && d.createdAt == m.createdAt
  {
    TokenDto(m.id, m.userId, m.token, m.purpose, m.createdAt, m.expiresAt)
  }

  lemma TokenDtoRoundTrip(d: TokenDto)
    ensures ToVerificationTokenDto(ToVerificationTokenModel(d)) == d
  {
  }

  lemma TokenModelRoundTrip(m: Token)
    ensures ToVerificationTokenModel(ToVerificationTokenDto(m)) == m
  {
  }

  datatype TokenQuery = QuerySave | QueryByToken | QueryDeleteByUser

  /** The tokens table, keyed by the token string. */
  datatype TokenStore = TokenStore(rows: map<string, Token>, faults: set<TokenQuery>)

  predicate Valid(s: TokenStore) {
    forall k :: k in s.rows ==> s.rows[k].token == k
  }

  predicate IdInUse(s: TokenStore, id: string) {
    exists k :: k in s.rows && s.rows[k].id == id
  }

  /** The two values `uuid.NewString()` yields during a create: the token string
      and the row id that `BeforeCreate` assigns. */
  datatype Fresh = Fresh(id: string, token: string)

  const SecondsPerMinute := 60
  const MsgSaveFailed := "Failed to save verification token"
  const MsgTokenNotFound := "Token not found"
  const MsgFetchFailed := "Failed to fetch verification token"
  const MsgDeleteFailed := "Failed to delete user tokens"

  /** A token is expired strictly after its expiry instant (`time.Now().After`). */
  predicate Expired(t: TokenDto, now: int) {
    now > t.expiresAt
  }

  function CreateVerificationToken(s: TokenStore, userId: string, purpose: Purpose, now: int,
                                   durationMins: int, uuids: Fresh): (r: Step<TokenStore, TokenDto>)
    requires Valid(s)
    ensures Valid(r.state) && r.state.faults == s.faults
    ensures r.result.Err? ==> r.state == s && r.result == Err(InternalServer(MsgSaveFailed))
    ensures r.result.Ok? <==>
              QuerySave !in s.faults && uuids.token !in s.rows && !IdInUse(s, uuids.id)
    ensures r.result.Ok? ==>
              var t := r.result.value;
              && t.userId == userId && t.purpose == purpose && t.token == uuids.token
              && t.id == uuids.id && t.createdAt == now
              && t.expiresAt == now + durationMins * SecondsPerMinute
              && t.token !in s.rows
              && r.state.rows == s.rows[t.token := ToVerificationTokenModel(t)]
  {
    var t := Token(uuids.id, userId, uuids.token, purpose, now,
                   now + durationMins * SecondsPerMinute);
    if QuerySave in s.faults || uuids.token in s.rows || IdInUse(s, uuids.id) then
      Step(s, Err(InternalServer(MsgSaveFailed)))
    else
      Step(s.(rows := s.rows[uuids.token := t]), Ok(ToVerificationTokenDto(t)))
  }

  /** A freshly created token is live for exactly its duration: not expired at
      its expiry instant, expired one second later. */
  lemma CreatedTokenLifetime(s: TokenStore, userId: string, purpose: Purpose, now: int,
                             durationMins: nat, uuids: Fresh)
    requires Valid(s)
    requires CreateVerificationToken(s, userId, purpose, now, durationMins, uuids).result.Ok?
    ensures var t := CreateVerificationToken(s, userId, purpose, now, durationMins, uuids).result.value;
            !Expired(t, now) && !Expired(t, now + durationMins * 60) && Expired(t, now + durationMins * 60 + 1)
  {
  }

  function GetToken(s: TokenStore, token: string): (r: Result<TokenDto>)
    requires Valid(s)
    ensures QueryByToken in s.faults ==> r == Err(InternalServer(MsgFetchFailed))
    ensures QueryByToken !in s.faults ==>
              (r.Ok? <==> token in s.rows)
              && (token !in s.rows ==> r == Err(NotFound(MsgTokenNotFound)))
    ensures r.Ok? ==> r.value.token == token && ToVerificationTokenModel(r.value) == s.rows[token]
  {
    if QueryByToken in s.faults then Err(InternalServer(MsgFetchFailed))
    else if token in s.rows then Ok(ToVerificationTokenDto(s.rows[token]))
    else Err(NotFound(MsgTokenNotFound))
  }

  function DeleteTokensForUser(s: TokenStore, userId: string): (r: Step<TokenStore, ()>)
    requires Valid(s)
    ensures Valid(r.state) && r.state.faults == s.faults
    ensures QueryDeleteByUser in s.faults ==>
              r == Step(s, Err(InternalServer(MsgDeleteFailed)))
    ensures QueryDeleteByUser !in s.faults ==> r.result.Ok?
    ensures r.result.Ok? ==>
              // every token of that user is gone, whatever its purpose ...
              && (forall k :: k in r.state.rows ==> r.state.rows[k].userId != userId)
              // ... and every other user's token is kept as it was
              && (forall k :: k in s.rows && s.rows[k].userId != userId ==>
                    k in r.state.rows && r.state.rows[k] == s.rows[k])
              && r.state.rows.Keys <= s.rows.Keys
  {
    if QueryDeleteByUser in s.faults then Step(s, Err(InternalServer(MsgDeleteFailed)))
    else Step(s.(rows := map k | k in s.rows && s.rows[k].userId != userId :: s.rows[k]), Ok(()))
  }

  /** Once a user's tokens are deleted, none of them can be looked up again. */
  lemma DeletedTokensAreGone(s: TokenStore, userId: string, token: string)
    requires Valid(s) && QueryDeleteByUser !in s.faults && QueryByToken !in s.faults
    requires token in s.rows && s.rows[token].userId == userId
    ensures GetToken(DeleteTokensForUser(s, userId).state, token) == Err(NotFound(MsgTokenNotFound))
  {
  }
}

=== FILE: user_store.dfy ===
/** The users table behind both user services (internal/users/user_repository.go,
    internal/user/user_repository.go), as a map from id to row. The schema's
    primary key on `id` and unique index on `email` (internal/user/user.go) are
    the store's invariant; a write that would break either is refused, as the
    database would refuse it. Queries named in `faults` fail with an error other
    than "record not found" (the database is unreachable, say). */
module UserStore {
  import opened ServiceErrors
  import opened UserTypes

  datatype UserQuery = QueryById | QueryByEmail | QuerySave

  /** What `First` gives back: a row, gorm.ErrRecordNotFound, or another error. */
  datatype Lookup<+T> = Found(value: T) | Missing | Failed

  datatype Directory = Directory(accounts: map<string, User>, faults: set<UserQuery>)

  /** Rows are keyed by their own id, and no two rows share an email. */
  predicate Valid(db: Directory) {
    && (forall k :: k in db.accounts ==> db.accounts[k].id == k)
    && (forall a, b ::
          a in db.accounts && b in db.accounts && db.accounts[a].email == db.accounts[b].email
          ==> a == b)
  }

  predicate HasEmail(db: Directory, email: string) {
    exists k :: k in db.accounts && db.accounts[k].email == email
  }

  /** Some row other than `id` already uses `email`. */
  predicate EmailTakenByOther(db: Directory, id: string, email: string) {
    exists k :: k in db.accounts && k != id && db.accounts[k].email == email
  }

  function FindById(db: Directory, id: string): (r: Lookup<User>)
    ensures QueryById in db.faults ==> r.Failed?
    ensures QueryById !in db.faults ==> (r.Found? <==> id in db.accounts) && !r.Failed?
    ensures r.Found? ==> id in db.accounts && r.value == db.accounts[id]
  {
    if QueryById in db.faults then Failed
    else if id in db.accounts then Found(db.accounts[id])
    else Missing
  }

  function FindByEmail(db: Directory, email: string): (r: Lookup<User>)
    requires Valid(db)
    ensures QueryByEmail in db.faults ==> r.Failed?
    ensures QueryByEmail !in db.faults ==> (r.Found? <==> HasEmail(db, email)) && !r.Failed?
    ensures r.Found? ==> r.value.id in db.accounts && db.accounts[r.value.id] == r.value
    ensures r.Found? ==> r.value.email == email
  {
    if QueryByEmail in db.faults then Failed
    else if HasEmail(db, email) then
      var k :| k in db.accounts && db.accounts[k].email == email;
      Found(db.accounts[k])
    else Missing
  }

  /** gorm `Save` of a new row (`BeforeCreate` has put the fresh id in `u.id`):
      refused when the id or the email is already present. */
  function Insert(db: Directory, u: User): (r: Option<Directory>)
    requires Valid(db)
    ensures r.Some? <==> QuerySave !in db.faults && u.id !in db.accounts && !HasEmail(db, u.email)
    ensures r.Some? ==> r.value.accounts == db.accounts[u.id := u] && r.value.faults == db.faults
    ensures r.Some? ==> Valid(r.value)
  {
    if QuerySave in db.faults || u.id in db.accounts || HasEmail(db, u.email) then None
    else Some(db.(accounts := db.accounts[u.id := u]))
  }

  /** gorm `Save` of a row that exists: refused when another row holds the email. */
  function Overwrite(db: Directory, u: User): (r: Option<Directory>)
    requires Valid(db) && u.id in db.accounts
    ensures r.Some? <==> QuerySave !in db.faults && !EmailTakenByOther(db, u.id, u.email)
    ensures r.Some? ==> r.value.accounts == db.accounts[u.id := u] && r.value.faults == db.faults
    ensures r.Some? ==> Valid(r.value)
  {
    if QuerySave in db.faults || EmailTakenByOther(db, u.id, u.email) then None
    else Some(db.(accounts := db.accounts[u.id := u]))
  }
}

=== FILE: user_types.dfy ===
/** The account entity shared by the `users` package and its legacy twin `user`:
    the stored record (internal/user/user.go), the transfer object
    (internal/users/user_dto.go), the status and role enumerations and the
    conversions between record and transfer object. */
module UserTypes {

  /** `UserRole` is a Go string; `RoleNone` stands for the empty string, which
      the services treat as "no value given". */
  datatype Role = RoleNone | RoleUser | RoleAdmin

  /** `UserStatus` (internal/users/user_status.go); `StatusNone` is the empty string. */
  datatype Status = StatusNone | Pending | Active | Blocked

  function RoleName(r: Role): string {
    match r
    case RoleNone => ""
    case RoleUser => "User"
    case RoleAdmin => "Admin"
  }

  function StatusName(s: Status): string {
    match s
    case StatusNone => ""
    case Pending => "Pending"
    case Active => "Active"
    case Blocked => "Blocked"
  }

  /** The stored row. Timestamps are Unix seconds. */
  datatype User = User(
    id: string,
    email: string,
    password: string,
    username: string,
    role: Role,
    status: Status,
    provider: string,
    pictureUrl: string,
    createdAt: int,
    updatedAt: int)

  /** The transfer object the services hand around. */
  datatype UserDto = UserDto(
    id: string,
    email: string,
    password: string,
    username: string,
    role: Role,
    status: Status,
    provider: string,
    pictureUrl: string,
    createdAt: int,
    updatedAt: int)

  /** A transfer object with only the given fields set, the rest empty. */
  function NewDto(email: string, password: string, username: string, role: Role,
                  status: Status, provider: string, pictureUrl: string): UserDto {
    UserDto("", email, password, username, role, status, provider, pictureUrl, 0, 0)
  }

  function ToUserModel(d: UserDto): (m: User)
    ensures m.id == d.id && m.email == d.email && m.password == d.password
    ensures m.role == d.role && m.status == d.status
    ensures m.username == d.username && m.provider == d.provider && m.pictureUrl == d.pictureUrl
  {
    User(d.id, d.email, d.password, d.username, d.role, d.status, d.provider,
         d.pictureUrl, d.createdAt, d.updatedAt)
  }

  function ToUserDto(m: User): (d: UserDto)
    ensures d.id == m.id && d.email == m.email && d.password == m.password
    ensures d.role == m.role && d.status == m.status
    ensures d.username == m.username && d.provider == m.provider && d.pictureUrl == m.pictureUrl
  {
    UserDto(m.id, m.email, m.password, m.username, m.role, m.status, m.provider,
            m.pictureUrl, m.createdAt, m.updatedAt)
  }

  lemma UserDtoRoundTrip(d: UserDto)
    ensures ToUserDto(ToUserModel(d)) == d
  {
  }

  lemma UserModelRoundTrip(m: User)
    ensures ToUserModel(ToUserDto(m)) == m
  {
  }

  /** A JSON value as the encoder writes it. */
  datatype Json = JString(s: string) | JTime(unixSeconds: int)

  /** The members `encoding/json` writes for a UserDto, in declaration order:
      fields tagged `json:"-"` are skipped and PictureUrl is written as "picture". */
  function JsonView(d: UserDto): seq<(string, Json)> {
    [("id", JString(d.id)),
     ("email", JString(d.email)),
     ("username", JString(d.username)),
     ("role", JString(RoleName(d.role))),
     ("status", JString(StatusName(d.status))),
     ("picture", JString(d.pictureUrl)),
     ("created_at", JTime(d.createdAt))]
  }

  function Keys(view: seq<(string, Json)>): (ks: set<string>)
    ensures forall i :: 0 <= i < |view| ==> view[i].0 in ks
    ensures forall k :: k in ks ==> exists i :: 0 <= i < |view| && view[i].0 == k
  {
    set i | 0 <= i < |view| :: view[i].0
  }

  /** The password hash, the provider and the update time never leave the
      service; the picture travels under the key "picture". */
  lemma JsonViewHidesSecrets(d: UserDto)
    ensures "password" !in Keys(JsonView(d))
    ensures "provider" !in Keys(JsonView(d))
    ensures "updated_at" !in Keys(JsonView(d))
    ensures "pictureUrl" !in Keys(JsonView(d))
    ensures ("picture", JString(d.pictureUrl)) in JsonView(d)
  {
  }
}

=== FILE: users.dfy ===
/** The user directory of the `users` package (internal/users/user_service.go):
    create with duplicate-email rejection, field-wise merge on update, upsert
    keyed by email, and lookups that tell "missing" from "failed". */
module Users {
  import opened ServiceErrors
  import opened UserTypes
  import opened UserStore

  const MsgFetchByEmailFailed := "Failed to fetch user by email"
  const MsgFetchByIdFailed := "Failed to fetch user by id"
  const MsgEmailExists := "User with this email already exists"
  const MsgSaveFailed := "Failed to save user"
  const MsgFindFailed := "Failed to find user"
  const MsgUpdateFailed := "Failed to update user"
  const MsgUserNotFound := "User not found"

  /** A non-empty incoming value wins over the stored one. */
  function Pick(incoming: string, current: string): string {
    if incoming != "" then incoming else current
  }

  function PickRole(incoming: Role, current: Role): Role {
    if incoming != RoleNone then incoming else current
  }

  function PickStatus(incoming: Status, current: Status): Status {
    if incoming != StatusNone then incoming else current
  }

  /** The row UpdateUser writes: seven fields may be overridden, the id and the
      timestamps are kept. */
  function Merge(u: User, d: UserDto): User {
    u.(email := Pick(d.email, u.email),
       username := Pick(d.username, u.username),
       pictureUrl := Pick(d.pictureUrl, u.pictureUrl),
       provider := Pick(d.provider, u.provider),
       status := PickStatus(d.status, u.status),
       role := PickRole(d.role, u.role),
       password := Pick(d.password, u.password))
  }

  /** A transfer object that asks for no change. */
  predicate IsBlank(d: UserDto) {
    d.email == "" && d.username == "" && d.pictureUrl == "" && d.provider == ""
    && d.status == StatusNone && d.role == RoleNone && d.password == ""
  }

  lemma MergeBlankIsIdentity(u: User, d: UserDto)
    requires IsBlank(d)
    ensures Merge(u, d) == u
  {
  }

  /** Applying the same update twice is the same as applying it once. */
  lemma MergeIdempotent(u: User, d: UserDto)
    ensures Merge(Merge(u, d), d) == Merge(u, d)
  {
  }

  /** Writing a row's own transfer object back with one field changed changes
      exactly that field (what email verification relies on). */
  lemma MergeOwnDtoWithStatus(u: User, s: Status)
    requires s != StatusNone
    ensures Merge(u, ToUserDto(u).(status := s)) == u.(status := s)
  {
  }

  lemma MergeOwnDtoWithPassword(u: User, p: string)
    requires p != ""
    ensures Merge(u, ToUserDto(u).(password := p)) == u.(password := p)
  {
  }

  /** Every field of the merged row either keeps the stored value or takes the
      incoming one, and it takes the incoming one exactly when that is non-empty. */
  lemma MergeFieldwise(u: User, d: UserDto)
    ensures Merge(u, d).id == u.id
    ensures Merge(u, d).createdAt == u.createdAt && Merge(u, d).updatedAt == u.updatedAt
    ensures d.email != "" ==> Merge(u, d).email == d.email
    ensures d.email == "" ==> Merge(u, d).email == u.email
    ensures d.password != "" ==> Merge(u, d).password == d.password
    ensures d.password == "" ==> Merge(u, d).password == u.password
    ensures d.status != StatusNone ==> Merge(u, d).status == d.status
    ensures d.status == StatusNone ==> Merge(u, d).status == u.status
    ensures d.role != RoleNone ==> Merge(u, d).role == d.role
    ensures d.role == RoleNone ==> Merge(u, d).role == u.role
    ensures d.username != "" ==> Merge(u, d).username == d.username
    ensures d.username == "" ==> Merge(u, d).username == u.username
    ensures d.pictureUrl != "" ==> Merge(u, d).pictureUrl == d.pictureUrl
    ensures d.pictureUrl == "" ==> Merge(u, d).pictureUrl == u.pictureUrl
    ensures d.provider != "" ==> Merge(u, d).provider == d.provider
    ensures d.provider == "" ==> Merge(u, d).provider == u.provider
  {
  }

  /** The row a create stores: the given fields, the fresh id. */
  function NewRow(d: UserDto, newId: string): (u: User)
    ensures u.id == newId
    ensures u.email == d.email && u.password == d.password && u.username == d.username
    ensures u.role == d.role && u.status == d.status
    ensures u.provider == d.provider && u.pictureUrl == d.pictureUrl
  {
    ToUserModel(d).(id := newId)
  }

  /** The shared part of both packages' SaveUser: reject a known email, then
      insert the row under the id the store assigns. */
  function Create(db: Directory, d: UserDto, newId: string): (r: Step<Directory, UserDto>)
    requires Valid(db)
    ensures Valid(r.state) && r.state.faults == db.faults
    ensures r.result.Err? ==> r.state == db
    ensures QueryByEmail in db.faults ==> r.result == Err(InternalServer(MsgFetchByEmailFailed))
    ensures QueryByEmail !in db.faults && HasEmail(db, d.email) ==>
              r.result == Err(BadRequest(MsgEmailExists))
    ensures r.result.Ok? <==>
              QueryByEmail !in db.faults && QuerySave !in db.faults
              && !HasEmail(db, d.email) && newId !in db.accounts
    ensures r.result.Err? && QueryByEmail !in db.faults && !HasEmail(db, d.email) ==>
              r.result == Err(InternalServer(MsgSaveFailed))
    ensures r.result.Ok? ==>
              r.result.value == ToUserDto(NewRow(d, newId))
              && r.state.accounts == db.accounts[newId := NewRow(d, newId)]
  {
    match UserStore.FindByEmail(db, d.email)
    case Failed => Step(db, Err(InternalServer(MsgFetchByEmailFailed)))
    case Found(_) => Step(db, Err(BadRequest(MsgEmailExists)))
    case Missing =>
      var u := NewRow(d, newId);
      match Insert(db, u)
      case None => Step(db, Err(InternalServer(MsgSaveFailed)))
      case Some(db') => Step(db', Ok(ToUserDto(u)))
  }

  function WithDefaultRole(d: UserDto): (d': UserDto)
    ensures d'.role != RoleNone
    ensures d.role != RoleNone ==> d' == d
    ensures d'.role == RoleUser || d' == d
    ensures d' == d.(role := d'.role)
  {
    if d.role == RoleNone then d.(role := RoleUser) else d
  }

  /** SaveUser: Create, with an empty role replaced by RoleUser before the row is written. */
  function SaveUser(db: Directory, d: UserDto, newId: string): (r: Step<Directory, UserDto>)
    requires Valid(db)
    ensures Valid(r.state) && r.state.faults == db.faults
    ensures r.result.Err? ==> r.state == db
    ensures QueryByEmail in db.faults ==> r.result == Err(InternalServer(MsgFetchByEmailFailed))
    ensures QueryByEmail !in db.faults && HasEmail(db, d.email) ==>
              r.result == Err(BadRequest(MsgEmailExists))
    ensures r.result.Ok? <==>
              QueryByEmail !in db.faults && QuerySave !in db.faults
              && !HasEmail(db, d.email) && newId !in db.accounts
    ensures r.result.Err? && QueryByEmail !in db.faults && !HasEmail(db, d.email) ==>
              r.result == Err(InternalServer(MsgSaveFailed))
    ensures r.result.Ok? ==>
              var u := r.result.value;
              && u.id == newId
              && u.role == (if d.role == RoleNone then RoleUser else d.role)
              && u.email == d.email && u.password == d.password && u.username == d.username
              && u.status == d.status && u.provider == d.provider && u.pictureUrl == d.pictureUrl
              && r.state.accounts == db.accounts[newId := ToUserModel(u)]
  {
    Create(db, WithDefaultRole(d), newId)
  }

  function UpdateUser(db: Directory, id: string, d: UserDto): (r: Step<Directory, UserDto>)
    requires Valid(db)
    ensures Valid(r.state) && r.state.faults == db.faults
    ensures r.result.Err? ==> r.state == db
    ensures QueryById in db.faults || id !in db.accounts ==> r.result == Err(InternalServer(MsgFindFailed))
    ensures QueryById !in db.faults && id in db.accounts && r.result.Err? ==>
              r.result == Err(InternalServer(MsgUpdateFailed))
    ensures r.result.Ok? <==>
              QueryById !in db.faults && QuerySave !in db.faults && id in db.accounts
              && !EmailTakenByOther(db, id, Merge(db.accounts[id], d).email)
    ensures r.result.Ok? ==>
              r.result.value == ToUserDto(Merge(db.accounts[id], d))
              && r.state.accounts == db.accounts[id := Merge(db.accounts[id], d)]
              && r.state.accounts.Keys == db.accounts.Keys
  {
    match UserStore.FindById(db, id)
    case Failed => Step(db, Err(InternalServer(MsgFindFailed)))
    case Missing => Step(db, Err(InternalServer(MsgFindFailed)))
    case Found(u) =>
      var merged := Merge(u, d);
      match Overwrite(db, merged)
      case None => Step(db, Err(InternalServer(MsgUpdateFailed)))
      case Some(db') => Step(db', Ok(ToUserDto(merged)))
  }

  /** The upsert both packages share, given the package's own SaveUser outcome. */
  function UpsertWith(db: Directory, d: UserDto, saved: Step<Directory, UserDto>): (r: Step<Directory, UserDto>)
    requires Valid(db)
  {
    match UserStore.FindByEmail(db, d.email)
    case Failed => Step(db, Err(InternalServer(MsgFetchByEmailFailed)))
    case Found(e) => UpdateUser(db, e.id, d)
    case Missing => saved
  }

  function UpsertUser(db: Directory, d: UserDto, newId: string): (r: Step<Directory, UserDto>)
    requires Valid(db)
    ensures Valid(r.state) && r.state.faults == db.faults
    ensures r.result.Err? ==> r.state == db
    ensures QueryByEmail in db.faults ==> r.result == Err(InternalServer(MsgFetchByEmailFailed))
    // an account with that email is updated in place: no account is added
    ensures QueryByEmail !in db.faults && HasEmail(db, d.email) ==>
              r.state.accounts.Keys == db.accounts.Keys
              && (r.result.Ok? ==> r.result.value.email == d.email
                                   && r.result.value.id in db.accounts
                                   && db.accounts[r.result.value.id].email == d.email
                                   && r.result.value == ToUserDto(Merge(db.accounts[r.result.value.id], d)))
    // the account holding the email is merged with the request, and only it
    ensures forall k :: QueryByEmail !in db.faults && k in db.accounts && db.accounts[k].email == d.email ==>
              && (r.result.Ok? <==> QueryById !in db.faults && QuerySave !in db.faults)
              && (r.result.Err? ==> r.result == Err(InternalServer(if QueryById in db.faults then MsgFindFailed
                                                                  else MsgUpdateFailed)))
              && (r.result.Ok? ==> r.state.accounts == db.accounts[k := Merge(db.accounts[k], d)]
                                   && r.result.value == ToUserDto(Merge(db.accounts[k], d)))
    // otherwise it is a SaveUser
    ensures QueryByEmail !in db.faults && !HasEmail(db, d.email) ==>
              r == SaveUser(db, d, newId)
    ensures r.result.Ok? ==>
              r.result.value.id in r.state.accounts
              && r.state.accounts[r.result.value.id] == ToUserModel(r.result.value)
              && r.result.value.email == d.email
  {
    UpsertWith(db, d, SaveUser(db, d, newId))
  }

  /** Upserting the same email twice keeps a single account and a single id. */
  lemma {:induction false} UpsertTwiceKeepsId(db: Directory, d1: UserDto, d2: UserDto, id1: string, id2: string)
    requires Valid(db) && d1.email == d2.email
    requires UpsertUser(db, d1, id1).result.Ok?
    requires QueryByEmail !in db.faults
    ensures var s1 := UpsertUser(db, d1, id1);
            var s2 := UpsertUser(s1.state, d2, id2);
            s2.state.accounts.Keys == s1.state.accounts.Keys
            && (s2.result.Ok? ==> s2.result.value.id == s1.result.value.id)
  {
    var s1 := UpsertUser(db, d1, id1);
    var u := s1.result.value;
    assert HasEmail(s1.state, d2.email) by {
      assert u.id in s1.state.accounts && s1.state.accounts[u.id].email == d2.email;
    }
    var s2 := UpsertUser(s1.state, d2, id2);
    if s2.result.Ok? {
      assert s2.result.value.id in s1.state.accounts;
      assert s1.state.accounts[s2.result.value.id].email == d2.email;
    }
  }

  function FindById(db: Directory, id: string): (r: Result<UserDto>)
    ensures QueryById !in db.faults ==>
              (r.Ok? <==> id in db.accounts)
              && (id !in db.accounts ==> r == Err(NotFound(MsgUserNotFound)))
    ensures QueryById in db.faults ==> r == Err(InternalServer(MsgFetchByIdFailed))
    ensures r.Ok? ==> id in db.accounts && ToUserModel(r.value) == db.accounts[id]
  {
    match UserStore.FindById(db, id)
    case Found(u) => Ok(ToUserDto(u))
    case Missing => Err(NotFound(MsgUserNotFound))
    case Failed => Err(InternalServer(MsgFetchByIdFailed))
  }

  function FindByEmail(db: Directory, email: string): (r: Result<UserDto>)
    requires Valid(db)
    ensures QueryByEmail !in db.faults ==>
              (r.Ok? <==> HasEmail(db, email))
              && (!HasEmail(db, email) ==> r == Err(NotFound(MsgUserNotFound)))
    ensures QueryByEmail in db.faults ==> r == Err(InternalServer(MsgFetchByEmailFailed))
    ensures r.Ok? ==> r.value.email == email && r.value.id in db.accounts
                      && ToUserModel(r.value) == db.accounts[r.value.id]
  {
    match UserStore.FindByEmail(db, email)
    case Found(u) => Ok(ToUserDto(u))
    case Missing => Err(NotFound(MsgUserNotFound))
    case Failed => Err(InternalServer(MsgFetchByEmailFailed))
  }
}

=== FILE: validation.dfy ===
/** Request validation (internal/validation/validation_service.go): the
    password-strength rule and the per-request validators that run the
    structural (tag-based) check first. The tag-based check of the validation
    library is an input, and so are the Unicode categories. */
module Validation {
  import opened ServiceErrors

  const MinPasswordLength := 8
  const MsgInvalidRequest := "Request didn't pass validation"
  const MsgTooShort := "password must be at least 8 characters long"
  const MsgWeak := "Password must include at least one uppercase letter, one lowercase letter, one digit, and one special character"

  /** `unicode.IsUpper`, `IsLower`, `IsDigit`, `IsPunct` and `IsSymbol`. */
  datatype CharClasses = CharClasses(
    isUpper: char -> bool,
    isLower: char -> bool,
    isDigit: char -> bool,
    isPunct: char -> bool,
    isSymbol: char -> bool)

  /** The one flag a rune may set: the switch takes the first case that holds. */
  datatype Flag = UpperFlag | LowerFlag | DigitFlag | SpecialFlag | NoFlag

  function FlagOf(cls: CharClasses, c: char): Flag {
    if cls.isUpper(c) then UpperFlag
    else if cls.isLower(c) then LowerFlag
    else if cls.isDigit(c) then DigitFlag
    else if cls.isPunct(c) || cls.isSymbol(c) then SpecialFlag
    else NoFlag
  }

  /** The order of the switch: a rune counts as lower-case only if it is not
      upper-case, as a digit only if it is neither, and so on. */
  lemma FlagPrecedence(cls: CharClasses, c: char)
    ensures FlagOf(cls, c) == UpperFlag <==> cls.isUpper(c)
    ensures FlagOf(cls, c) == LowerFlag <==> !cls.isUpper(c) && cls.isLower(c)
    ensures FlagOf(cls, c) == DigitFlag <==> !cls.isUpper(c) && !cls.isLower(c) && cls.isDigit(c)
    ensures FlagOf(cls, c) == SpecialFlag <==>
              !cls.isUpper(c) && !cls.isLower(c) && !cls.isDigit(c) && (cls.isPunct(c) || cls.isSymbol(c))
  {
  }

  /** Bytes of one rune in UTF-8: Go's `len` counts bytes, not runes. */
  function Utf8Width(c: char): nat {
    if c as int < 0x80 then 1
    else if c as int < 0x800 then 2
    else if c as int < 0x10000 then 3
    else 4
  }

  function ByteLength(s: string): nat {
    if |s| == 0 then 0 else ByteLength(s[..|s| - 1]) + Utf8Width(s[|s| - 1])
  }

  lemma {:induction false} ByteLengthAppend(s: string, t: string)
    ensures ByteLength(s + t) == ByteLength(s) + ByteLength(t)
    decreases |t|
  {
    if |t| == 0 {
      assert s + t == s;
    } else {
      var t' := t[..|t| - 1];
      assert (s + t)[..|s + t| - 1] == s + t';
      ByteLengthAppend(s, t');
    }
  }

  /** A string has at least as many bytes as runes, and at most four per rune. */
  lemma {:induction false} ByteLengthBounds(s: string)
    ensures |s| <= ByteLength(s) <= 4 * |s|
  {
    if |s| > 0 {
      ByteLengthBounds(s[..|s| - 1]);
    }
  }

  predicate HasFlag(cls: CharClasses, s: string, f: Flag) {
    exists i :: 0 <= i < |s| && FlagOf(cls, s[i]) == f
  }

  /** The accepted passwords: eight bytes or more, and each of the four classes
      present. */
  predicate Strong(cls: CharClasses, s: string) {
    && ByteLength(s) >= MinPasswordLength
    && HasFlag(cls, s, UpperFlag) && HasFlag(cls, s, LowerFlag)
    && HasFlag(cls, s, DigitFlag) && HasFlag(cls, s, SpecialFlag)
  }

  datatype Flags = Flags(hasUpper: bool, hasLower: bool, hasNumber: bool, hasSpecial: bool)

  function Raise(fs: Flags, f: Flag): Flags {
    match f
    case UpperFlag => fs.(hasUpper := true)
    case LowerFlag => fs.(hasLower := true)
    case DigitFlag => fs.(hasNumber := true)
    case SpecialFlag => fs.(hasSpecial := true)
    case NoFlag => fs
  }

  /** The flags after the `range` loop over the runes of `s`. */
  function Scan(cls: CharClasses, s: string): (fs: Flags)
    ensures fs.hasUpper <==> HasFlag(cls, s, UpperFlag)
    ensures fs.hasLower <==> HasFlag(cls, s, LowerFlag)
    ensures fs.hasNumber <==> HasFlag(cls, s, DigitFlag)
    ensures fs.hasSpecial <==> HasFlag(cls, s, SpecialFlag)
  {
    if |s| == 0 then Flags(false, false, false, false)
    else
      var prefix := s[..|s| - 1];
      var fs := Raise(Scan(cls, prefix), FlagOf(cls, s[|s| - 1]));
      assert forall i :: 0 <= i < |prefix| ==> prefix[i] == s[i];
      fs
  }

  /** validatePassword: the length test comes first, then the four flags. */
  function ValidatePassword(cls: CharClasses, password: string): (r: Result<()>)
    ensures ByteLength(password) < MinPasswordLength ==> r == Err(BadRequest(MsgTooShort))
    ensures ByteLength(password) >= MinPasswordLength && !Strong(cls, password) ==>
              r == Err(BadRequest(MsgWeak))
    ensures r.Ok? <==> Strong(cls, password)
  {
    if ByteLength(password) < MinPasswordLength then Err(BadRequest(MsgTooShort))
    else
      var fs := Scan(cls, password);
      if !(fs.hasUpper && fs.hasLower && fs.hasNumber && fs.hasSpecial) then Err(BadRequest(MsgWeak))
      else Ok(())
  }

  /** Flags are only ever raised, so appending runes keeps a password accepted. */
  lemma {:induction false} StrongIsMonotone(cls: CharClasses, s: string, t: string)
    requires Strong(cls, s)
    ensures Strong(cls, s + t)
  {
    ByteLengthAppend(s, t);
    forall f | HasFlag(cls, s, f)
      ensures HasFlag(cls, s + t, f)
    {
      var i :| 0 <= i < |s| && FlagOf(cls, s[i]) == f;
      assert (s + t)[i] == s[i];
    }
  }

  /** The length test counts bytes: two runes outside the Basic Multilingual
      Plane already make eight. */
  lemma ShortInRunesCanPass(cls: CharClasses, s: string)
    requires |s| >= 2 && forall i :: 0 <= i < |s| ==> s[i] as int >= 0x10000
    ensures ByteLength(s) >= MinPasswordLength
  {
    ByteLengthBounds(s);
    AllWideBytes(s);
  }

  lemma {:induction false} AllWideBytes(s: string)
    requires forall i :: 0 <= i < |s| ==> s[i] as int >= 0x10000
    ensures ByteLength(s) == 4 * |s|
  {
    if |s| > 0 {
      AllWideBytes(s[..|s| - 1]);
    }
  }

  datatype SignUpRequest = SignUpRequest(username: string, email: string, password: string)
  datatype SignInRequest = SignInRequest(email: string, password: string)
  datatype VerificationTokenRequest = VerificationTokenRequest(email: string)
  datatype EmailVerificationRequest = EmailVerificationRequest(token: string)
  datatype PasswordResetRequest = PasswordResetRequest(token: string, password: string)
  datatype SynthesisRequest = SynthesisRequest(text: string)
  datatype ModelRequest = ModelRequest(url: string, name: string, language: string)

  /** The structural check, then the password rule. */
  function ValidateWithPassword(structOk: bool, cls: CharClasses, password: string): (r: Result<()>)
    ensures !structOk ==> r == Err(BadRequest(MsgInvalidRequest))
    ensures structOk ==> r == ValidatePassword(cls, password)
    ensures r.Ok? <==> structOk && Strong(cls, password)
  {
    if !structOk then Err(BadRequest(MsgInvalidRequest)) else ValidatePassword(cls, password)
  }

  /** The structural check alone. */
  function ValidateStructure(structOk: bool): (r: Result<()>)
    ensures r.Ok? <==> structOk
    ensures r.Err? ==> r.error == BadRequest(MsgInvalidRequest)
  {
    if !structOk then Err(BadRequest(MsgInvalidRequest)) else Ok(())
  }

  function ValidateSignUpRequest(req: SignUpRequest, structOk: bool, cls: CharClasses): (r: Result<()>)
    ensures !structOk ==> r == Err(BadRequest(MsgInvalidRequest))
    ensures r.Ok? <==> structOk && Strong(cls, req.password)
  {
    ValidateWithPassword(structOk, cls, req.password)
  }

  function ValidateSignInRequest(req: SignInRequest, structOk: bool, cls: CharClasses): (r: Result<()>)
    ensures !structOk ==> r == Err(BadRequest(MsgInvalidRequest))
    ensures r.Ok? <==> structOk && Strong(cls, req.password)
  {
    ValidateWithPassword(structOk, cls, req.password)
  }

  function ValidatePasswordResetRequest(req: PasswordResetRequest, structOk: bool, cls: CharClasses): (r: Result<()>)
    ensures !structOk ==> r == Err(BadRequest(MsgInvalidRequest))
    ensures r.Ok? <==> structOk && Strong(cls, req.password)
  {
    ValidateWithPassword(structOk, cls, req.password)
  }

  function ValidateVerificationTokenRequest(req: VerificationTokenRequest, structOk: bool): (r: Result<()>)
    ensures r.Ok? <==> structOk
    ensures r.Err? ==> r.error == BadRequest(MsgInvalidRequest)
  {
    ValidateStructure(structOk)
  }

  function ValidateEmailVerificationRequest(req: EmailVerificationRequest, structOk: bool): (r: Result<()>)
    ensures r.Ok? <==> structOk
    ensures r.Err? ==> r.error == BadRequest(MsgInvalidRequest)
  {
    ValidateStructure(structOk)
  }

  function ValidateSynthesisRequest(req: SynthesisRequest, structOk: bool): (r: Result<()>)
    ensures r.Ok? <==> structOk
    ensures r.Err? ==> r.error == BadRequest(MsgInvalidRequest)
  {
    ValidateStructure(structOk)
  }

  function ValidateModelRequest(req: ModelRequest, structOk: bool): (r: Result<()>)
    ensures r.Ok? <==> structOk
    ensures r.Err? ==> r.error == BadRequest(MsgInvalidRequest)
  {
    ValidateStructure(structOk)
  }
}
